=== FILE: README.md ===
# Movie controller model

A Dafny model of the movie controller of a REST movie-catalogue backend
(`controllers/movies.js`, class `Movies`), with proofs about it. Each HTTP
handler becomes a pure function over an in-memory store:

- the store `Db` holds the movies collection (`seq<Movie>`, in an assumed
  natural order: insertion order),
  the actors collection (`seq<Actor>`) used by the actor-name look-up, and
  the next fresh id (ids stand in for MongoDB ObjectIds);
- a read handler takes the request parameters and the store and returns a
  `Response(status, body)`;
- a write handler also returns the store it leaves behind, as an
  `Outcome(response, db)`.

A movie document is `Movie(id, data)`. `MovieData` carries every schema key as
an `Option` (`None` is absent or `null`); it is also the shape of a create
request body. MongoDB filters are a first-order `Query` datatype with a
`Satisfies` relation, and `find`/`findOne` are `Find`/`FindOne` over that
order. MongoDB does not promise any natural order for a query without a
sort; the model assumes insertion order (see "## Left out"). The controller puts regular expressions with the `i` option
into its filters; MongoDB evaluates them on the server. They are modelled as
ASCII case-folded equality (`^q$`) or containment (bare `q`), taking the
pattern literally. `String.prototype.trim` strips the
ECMAScript white-space and line-terminator characters. Dates are integer
milliseconds since the Unix epoch on the proleptic Gregorian calendar, as
JavaScript's `Date` holds them.

Modules, one per concern:

| file | module | contents |
|---|---|---|
| options.dfy | Options | `Option` |
| text.dfy | Text | `trim`, case folding, case-insensitive equality and containment |
| calendar.dfy | Calendar | calendar arithmetic; the year windows of the year query |
| catalog.dfy | Catalog | documents, the store, filters, `Find`, `FindOne` |
| genres.dfy | Genres | the `$unwind` / `$group` / `$sort` genre aggregation |
| http.dfy | Http | response bodies and status codes |
| queries.dfy | Queries | the read handlers |
| mutations.dfy | Mutations | `addMovie`, `addMultipleMovies` |
| updates.dfy | Updates | `updateMovie`, `updateStatus`, `deleteMovie` |
| properties.dfy | Properties | properties relating several handlers or several calls |

Behaviour kept exactly as the code has it, quirks included:

- The duplicate check of `addMovie` compares titles exactly, letter case
  included. The title look-up ignores case. `CaseVariantTitleShadowed`
  proves the consequence: a case variant of a stored title is accepted, and
  looking it up afterwards finds the older movie (under the insertion-order
  assumption listed under "## Left out").
- `skippedCount` is the number of stored movies whose title was sent, not
  the number of items dropped (`SkippedCountCountsStoredMovies`).
- A batch is checked against the store only, so two new items with one
  title are both inserted (`BatchCanDuplicateTitles`).
- `updateStatus` does no existence check: an unknown id answers 200 with a
  `null` body.
- The array checks of `updateMovie` test truthiness first, so `null` passes
  the array checks.
- `getMoviesByGenre` does not check its parameter: when it is absent the
  pattern is built from the text `undefined`.
- A bulk insert of N new and M stored titles reports N inserted and M
  skipped when the sent titles are distinct and the stored titles are
  distinct (`BatchCountsNewAndStored`). Outside that case neither way of
  counting N and M holds in general. Counting items:
  `SkippedCountCountsStoredMovies` sends two items with a stored title and
  reports one skipped. Counting distinct titles: `BatchCanDuplicateTitles`
  sends one new title twice and reports two inserted.
- `countMoviesByGenre`'s `catch` is empty and sends no response.

## Model

| member | source | states |
|---|---|---|
| Text.TrimEmptyIffBlank | controllers/movies.js:25 | `title.trim() === ""` holds exactly when every character of the title is white space, so a blank parameter is refused and any other is looked up |
| Text.TrimEmptyIgnoresCase | controllers/movies.js:25 | whether a title parameter is refused as blank does not depend on its letter case |
| Calendar.YearWindowsTile | controllers/movies.js:54-55 | the window from `Y-01-01T00:00:00.000Z` to `Y-12-31T23:59:59.999Z` is the whole year: it ends one millisecond before year Y+1 starts, and it spans the year's 365 or 366 days |
| Calendar.YearStartMonotone | controllers/movies.js:54 | a later year starts no earlier |
| Calendar.YearWindowsDisjoint | controllers/movies.js:54-55 | no instant lies in the windows of two different years |
| Calendar.KnownYearStarts | controllers/movies.js:54 | the calendar arithmetic puts 1970-01-01 at instant 0 and 2000-01-01 at 946 684 800 000 ms, as JavaScript's `Date` does |
| Catalog.Find | controllers/movies.js:58-60 | `find` returns exactly the stored documents that match the filter, each as often as it is stored, and no more documents than the collection holds |
| Catalog.FindOne | controllers/movies.js:32 | `findOne` returns the earliest matching document in the modelled (insertion) order, and nothing exactly when no document matches |
| Catalog.FindAppend | controllers/movies.js:58-60 | `find` keeps natural order: filtering a concatenation filters each part in turn |
| Catalog.IdIsUnique | controllers/movies.js:150 | in a store whose ids are distinct, the movie found by id is the only one with that id |
| Genres.Unwind | controllers/movies.js:123 | `$unwind` produces exactly the genre values that occur in some movie's genre list |
| Genres.UnwindOne | controllers/movies.js:123 | one movie unwinds to its genre list element by element, repeated genres kept, and an absent list to nothing |
| Genres.UnwindAppend | controllers/movies.js:123 | `$unwind` works document by document in natural order: unwinding a concatenation unwinds each part in turn, so each genre element yields exactly one entry |
| Genres.Distinct | controllers/movies.js:126-127 | grouping by `_id: "$genre"` gives one key for every value that occurs and none for any other |
| Genres.InsertKeepsOrder | controllers/movies.js:132 | inserting a group into a list sorted by descending count keeps the list sorted |
| Genres.SortByTotal | controllers/movies.js:132 | `$sort: { total_movies: -1 }` returns a permutation of the groups with non-increasing counts |
| Genres.SortKeysAndSum | controllers/movies.js:132 | sorting neither adds nor drops a genre and keeps the sum of the counts |
| Genres.TallyOfDistinctSums | controllers/movies.js:126-128 | the `$sum: 1` counts of all groups add up to the number of unwound entries |
| Genres.GroupTotals | controllers/movies.js:126-128 | every group counts at least one entry, and counts every entry equal to its genre |
| Genres.CountByGenreCorrect | controllers/movies.js:121-134 | the aggregation has each occurring genre exactly once, each count is the number of genre-list entries equal to it, the counts never increase and add up to the number of entries, and it is empty exactly when no movie has a genre |
| Queries.GetAllMovies | controllers/movies.js:8-14 | 404 exactly when the collection is empty, otherwise every movie |
| Queries.FindByTitle | controllers/movies.js:32-37 | 404 exactly when no title equals the query ignoring case, otherwise the earliest movie, in insertion order, whose title does |
| Queries.GetMovieByTitle | controllers/movies.js:25-37 | 400 exactly when the title is missing or blank; 404 exactly when it is given, not blank, and matches no title ignoring case; otherwise 200 with the earliest matching movie in insertion order |
| Queries.ParseYear | controllers/movies.js:54-55 | a year parameter makes valid dates exactly when it is four ASCII digits, and then names a year below 10000 |
| Queries.ParseYearSpellsYear | controllers/movies.js:54-55 | the year read from a parameter is the one its four digits spell: printing it with four digits gives the parameter back, so `?date=2024` searches 2024 |
| Queries.ParseYearText | controllers/movies.js:54-55 | every year below 10000, written with four digits, is read back as itself |
| Queries.YearIsNotBlank | controllers/movies.js:48 | a parameter that reads as a year is never refused as blank |
| Queries.ReleasedWithinWindow | controllers/movies.js:58-64 | the release-date query returns exactly the movies released within the inclusive bounds with their number, and 404 exactly when there are none |
| Queries.MoviesOfYear | controllers/movies.js:54-64 | exactly the movies released in the inclusive year window, or 404 when there are none |
| Queries.GetMoviesByYear | controllers/movies.js:48-70 | 400 exactly for a missing or blank date; 500 exactly for one that is not a year; otherwise exactly the movies released within the year window with their number, 404 when there are none |
| Queries.GetMoviesByDateRange | controllers/movies.js:226-243 | 400 exactly when a bound is missing; 500 when a bound is not a date; otherwise exactly the movies released within the inclusive range with their number, 404 when there are none |
| Queries.GetMoviesByGenre | controllers/movies.js:79-89 | exactly the movies with a genre element equal to the parameter ignoring case (the text `undefined` when it is absent) with their number, 404 exactly when there are none |
| Queries.GetMoviesCurrentlyPlaying | controllers/movies.js:100-108 | exactly the movies whose status is `playing` with their number, 404 exactly when there are none |
| Queries.CountMoviesByGenre | controllers/movies.js:121-140 | 404 exactly when no movie has a genre; otherwise one group per occurring genre with its number of entries, counts non-increasing and summing to the number of entries |
| Queries.GetMovieById | controllers/movies.js:150-155 | 404 exactly when no movie has the id, otherwise a stored movie with that id |
| Queries.GetMoviesByActor | controllers/movies.js:168-179 | exactly the movies whose cast holds the id or whose director is the id, with their number; 404 exactly when there are none |
| Queries.ActorsNamed | controllers/movies.js:193 | exactly the actors whose name contains the parameter ignoring case |
| Queries.IdsOf | controllers/movies.js:199 | exactly the ids of the given actors |
| Queries.IdsOfNamedActors | controllers/movies.js:199-204 | a movie matches the `$in` filter built from the found actors' ids exactly when one of those actors plays in it or directs it |
| Queries.MoviesOfNamedActors | controllers/movies.js:202-213 | exactly the movies featuring an actor whose name contains the parameter, with their number; 404 exactly when there are none |
| Queries.GetMoviesByActorName | controllers/movies.js:193-213 | 404 "No actors found with this name" exactly when no actor's name contains the parameter; 404 exactly when no movie features such an actor; otherwise exactly the movies featuring one, with their number |
| Mutations.Destructured | controllers/movies.js:308-324 | the new document takes every key of the body except `bookings_count`, which it leaves absent |
| Mutations.AddMovie | controllers/movies.js:274-329 | 400 with the store unchanged when a required key is falsy; 400 with the store unchanged when a stored movie has exactly that title; otherwise 201, and the store gains exactly one movie, under a fresh id, holding the body's keys; distinct ids stay distinct |
| Mutations.Unlisted | controllers/movies.js:408-410 | the filter keeps each item whose title is not listed, as many times as it was sent, and no other |
| Mutations.TitlesOfTitleIn | controllers/movies.js:401-405 | the titles found by `$in` are, per value, as many as the store holds when the value was sent, and none otherwise |
| Mutations.UnlistedOne | controllers/movies.js:408-410 | a single item is kept exactly when its title is not in the list |
| Mutations.UnlistedAppend | controllers/movies.js:408-410 | `filter` works item by item: filtering a concatenation filters each part in turn, so the kept items stay in input order |
| Mutations.UnlistedMeansUnstored | controllers/movies.js:405-410 | testing an item's title against the titles found is testing it against every stored title |
| Mutations.FoundTitlesAgree | controllers/movies.js:401-409 | the found titles and the stored titles agree on every item's title |
| Mutations.UnlistedAgrees | controllers/movies.js:408-410 | filtering against two title lists that agree on every item's title keeps the same items in the same order |
| Mutations.MintKeepsValid | controllers/movies.js:419 | appending freshly numbered movies keeps ids distinct and below the counter |
| Mutations.InsertBatch | controllers/movies.js:401-431 | 200; the inserted items are exactly the items whose title is not stored, in input order, under fresh consecutive ids, appended to the store with nothing else changed; `insertedCount` is their number; the skipped titles are, per value, as many as the store holds when the value was sent; `skippedCount` is their number |
| Mutations.AddMultipleMovies | controllers/movies.js:394-431 | 400 with the store unchanged when `movies` is not an array; otherwise the batch outcome above |
| Updates.ApplyPatchWritesSuppliedKeys | controllers/movies.js:474-484 | after `$set`, each key the body sends holds the value sent (`null` included) and every other key keeps its value |
| Updates.ApplyPatchIdempotent | controllers/movies.js:482-486 | sending the same body twice writes the same document as sending it once |
| Updates.EmptyPatchKeepsDocument | controllers/movies.js:474-484 | a body with no defined key changes nothing |
| Updates.StatusPatch | controllers/movies.js:509 | the status update's body sends `status` with the given string as its value, and no other key |
| Updates.Replace | controllers/movies.js:482-486 | replacing one movie by one with the same id changes no other movie and keeps ids distinct |
| Updates.UpdateMovie | controllers/movies.js:455-488 | 404 with the store unchanged for an unknown id, before the body is checked; then 400 with the store unchanged for a truthy non-array `genre`, `producers`, `cast`, in that order; otherwise 200 with the movie in which exactly the sent keys hold the sent values, written in place with every other movie unchanged |
| Updates.FieldsDetermineDocument | controllers/movies.js:482-486 | two documents that agree on every schema key are the same document, so a key-by-key account of `$set` fixes the stored document |
| Updates.UpdateMovieWritesPatch | controllers/movies.js:482-488 | a successful update stores and returns exactly `$set` of the body applied to the stored document, in the movie's place |
| Updates.SetStatusKeepsOtherKeys | controllers/movies.js:509 | writing `status` changes no other key |
| Updates.UpdateStatus | controllers/movies.js:503-511 | 400 with the store unchanged for a non-string status; 200 with a `null` body and the store unchanged for an unknown id; otherwise only that movie's status changes |
| Updates.RemoveAt | controllers/movies.js:525 | removing one movie keeps the others in order, and in a store with distinct ids leaves no movie with its id |
| Updates.DeleteMovie | controllers/movies.js:525-529 | 404 with the store unchanged for an unknown id; otherwise 200 and exactly that movie is removed, the others kept in order |
| Properties.FindOneTitleAgrees | controllers/movies.js:32 | two title queries equal up to letter case find the same first movie |
| Properties.FindByTitleIgnoresQueryCase | controllers/movies.js:32-37 | the title look-up answers the same for two queries equal up to letter case |
| Properties.TitleLookupIgnoresQueryCase | controllers/movies.js:25-37 | the title handler gives the same response for two title parameters equal up to letter case |
| Properties.YearIsDateRange | controllers/movies.js:54-59 | the year query for Y gives the same status as the date-range query from `Y-01-01T00:00:00.000Z` to `Y-12-31T23:59:59.999Z`, and the same movies when it succeeds |
| Properties.YearResultsDisjoint | controllers/movies.js:54-59 | no movie is returned by the year queries of two different years |
| Properties.ActorNameIsUnionOfActorQueries | controllers/movies.js:193-204 | a movie is returned by the actor-name query exactly when the actor-id query returns it for some actor whose name contains the parameter |
| Properties.AddTwiceRejected | controllers/movies.js:295-298 | creating a movie and then sending the same body again gives 400 "Movie already exists" and leaves the store as the first call left it |
| Properties.AddedMovieFoundById | controllers/movies.js:327-329 | a created movie is found by the id it was given, and the look-up returns the same document |
| Properties.CaseVariantTitleShadowed | controllers/movies.js:295 | a title differing only in case from a stored one is accepted, and the title look-up for it then returns an earlier movie in insertion order, never the one just created |
| Properties.AddMovieKeepsTitlesDistinct | controllers/movies.js:295-298 | `addMovie` never stores a second movie with a stored title |
| Properties.BatchCanDuplicateTitles | controllers/movies.js:408-410 | a batch sending one new title twice inserts both items, and the store then holds that title twice |
| Properties.SkippedCountCountsStoredMovies | controllers/movies.js:428 | with one movie stored under a title and that title sent twice, nothing is inserted and `skippedCount` is 1, although two items were dropped |
| Properties.StoredOrKept | controllers/movies.js:408-410 | the items with a stored title and the items kept together account for every item sent |
| Properties.StoredOnesCount | controllers/movies.js:402 | among distinct item titles, each stored one is listed once |
| Properties.BatchCountsNewAndStored | controllers/movies.js:401-428 | with distinct titles sent to a store of distinct titles, `insertedCount` is the number of new titles, `skippedCount` the number of stored ones, and the two add up to the number of items |
| Properties.UpdateStatusIsStatusPatch | controllers/movies.js:509 | on a stored movie the status update is the general update with a body holding only `status`; on an unknown id the status update answers 200 with `null` while the general update answers 404 |
| Properties.DeleteThenGetByIdNotFound | controllers/movies.js:525-529 | in a store with distinct ids, fetching a movie by id after deleting it gives 404 |
| Properties.DeleteShrinksByOne | controllers/movies.js:525 | deleting a stored movie shrinks the collection by exactly one |
| Properties.CountFixture | controllers/movies.js:121-140 | for a movie with genres ["x"] and one with ["x", "y"] the genre count is x: 2, then y: 1 |

## Left out

- Regular-expression metacharacters: the title, genre and name parameters
  go into `RegExp` unescaped. The model matches them literally, so a
  parameter holding `.`, `*`, `(` and the like behaves differently.
- Regular-expression engine: MongoDB evaluates the filters with its PCRE
  engine. PCRE's `$` also matches before a final newline, so a stored title
  `"Alien\n"` matches `^alien$`; the model's equality does not. PCRE's
  case folding beyond ASCII is not modelled either; the model folds `A`–`Z`
  only.
- Queries.ParseYear: any text other than four ASCII digits is treated as an
  invalid date, answered 500. `new Date` also accepts the ECMAScript
  expanded-year form, a sign and six digits (`+002024`), and engines may
  accept further implementation-defined forms. Those are not modelled.
- Queries.GetMoviesByDateRange: the bounds arrive already parsed, as
  `DateArg` (missing, unparsable, or an instant). Parsing arbitrary date
  strings is not modelled.
- Catalog.FindOne: natural order is modelled as insertion order. MongoDB
  promises no natural order, so for a look-up without a sort (`findOne`,
  `find`) the model fixes one of the orders the database may return. The
  same holds for Queries.FindByTitle and Queries.GetMovieByTitle, whose
  "earliest match" is earliest in insertion order.
- Properties.CaseVariantTitleShadowed: its "never the one just created"
  rests on the insertion-order assumption above. With another natural
  order, `findOne` may return the new movie.
- Genres.SortByTotal: groups with equal counts are ordered by first
  appearance, one of the orders MongoDB may return. MongoDB promises no
  order among ties.
- Mutations.InsertBatch: every item is assumed to pass schema validation in
  `insertMany`. The schema is not part of this model, so the 207 partial-success
  branch is left out. That branch also reads `insertedMovies`, which is
  declared inside the `try` block and is out of scope in `catch`.
- The commented-out earlier `addMultipleMovies` (controllers/movies.js:336-389)
  is not modelled.
- Mutations.AddMovie: `save` runs the schema's validators and applies its
  defaults. The schema is not part of this model, so a document the schema
  refuses (answered 500) is modelled as saved with 201, and defaults are
  not filled in.
- Updates.UpdateMovie: the update runs with `runValidators`, so the schema
  may refuse a value, `null` for a required key among them, and the handler
  then answers 500. The schema is not part of this model; the model always
  writes the sent values and answers 200.
- Storage failures: every 500 path on a store error is left out. So is
  `countMoviesByGenre`'s empty `catch`, which sends no response.
- `populate` and `select`: these are treated as the identity. The response of
  the actor-name query keeps whole documents rather than the selected keys.
- Response key names: the date-range response names its count `totalMovies`
  where the others use `total_movies`. The model's `Listing(movies, total)`
  does not distinguish them.
- Null versus missing: a `null` and a missing title are both `None`.
  Falsy non-array values other than `null` for `genre`, `producers`, `cast`
  (`""`, `0`, `false`) are not modelled; schema casting would decide them.
  Update bodies carry only schema keys.
- Numbers: `runtime`, `rating` and `bookings_count` are integers, not
  floating point. `rating` and `runtime` are truthy when non-zero.
- Ids: MongoDB ObjectIds are natural numbers minted from a counter. A
  malformed id, which makes the store raise a cast error (500), is not
  modelled.
- Query parameters given as arrays (`?genre=a&genre=b`) are not modelled.
- Uploads: the multipart upload middleware, with its time- and
  random-based file names, is left out. So are the poster files and the
  routing in `routes/movies.js` and `routes/index.js`. Multipart bodies
  deliver every field as a string; the model takes typed values.
- Concurrency: two concurrent creations of one title can both pass the
  duplicate check. Handlers are modelled one at a time.

=== FILE: calendar.dfy ===
/** Instants on the proleptic Gregorian calendar in UTC, as JavaScript's
    `Date` holds them: whole milliseconds since 1970-01-01T00:00:00.000Z. */
module Calendar {

  /** Milliseconds since the Unix epoch; negative before 1970. */
  type Timestamp = int

  const MsPerDay: int := 86_400_000

  predicate IsLeapYear(y: nat) {
    y % 4 == 0 && (y % 100 != 0 || y % 400 == 0)
  }

  function DaysInYear(y: nat): nat {
    if IsLeapYear(y) then 366 else 365
  }

  function DaysInMonth(y: nat, m: nat): nat
    requires 1 <= m <= 12
  {
    if m == 2 then (if IsLeapYear(y) then 29 else 28)
    else if m == 4 || m == 6 || m == 9 || m == 11 then 30
    else 31
  }

  /** Days from 0000-01-01 to the first day of year `y`: 365 a year plus one
      per leap year before `y` (years divisible by 4, except centuries not
      divisible by 400; year 0 is a leap year). */
  function DaysBeforeYear(y: nat): nat {
    365 * y + (y + 3) / 4 - (y + 99) / 100 + (y + 399) / 400
  }

  /** Days from the first of January of year `y` to the first day of month `m`. */
  function DaysBeforeMonth(y: nat, m: nat): nat
    requires 1 <= m <= 12
  {
    if m == 1 then 0 else DaysBeforeMonth(y, m - 1) + DaysInMonth(y, m - 1)
  }

  /** The day 1970-01-01, counted from 0000-01-01. */
  function EpochDay(): nat {
    DaysBeforeYear(1970)
  }

  /** The instant named by the ISO 8601 string `YYYY-MM-DDTHH:mm:ss.sssZ`. */
  function Instant(y: nat, mo: nat, d: nat, h: nat, mi: nat, s: nat, ms: nat): Timestamp
    requires 1 <= mo <= 12 && 1 <= d <= DaysInMonth(y, mo)
    requires h < 24 && mi < 60 && s < 60 && ms < 1000
  {
    var day := DaysBeforeYear(y) + DaysBeforeMonth(y, mo) + (d - 1) - EpochDay();
    day * MsPerDay + ((h * 60 + mi) * 60 + s) * 1000 + ms
  }

  /** `Y-01-01T00:00:00.000Z`, the lower bound the year query builds. */
  function YearStart(y: nat): Timestamp {
    Instant(y, 1, 1, 0, 0, 0, 0)
  }

  /** `Y-12-31T23:59:59.999Z`, the upper bound the year query builds. */
  function YearEnd(y: nat): Timestamp {
    Instant(y, 12, 31, 23, 59, 59, 999)
  }

  /** Days before month twelve plus December's 31 days make the whole year. */
  lemma DecemberEndsYear(y: nat)
    ensures DaysBeforeMonth(y, 12) + 31 == DaysInYear(y)
  {
    assert DaysBeforeMonth(y, 2) == 31;
    assert DaysBeforeMonth(y, 3) == DaysBeforeMonth(y, 2) + DaysInMonth(y, 2);
    assert DaysBeforeMonth(y, 4) == DaysBeforeMonth(y, 3) + 31;
    assert DaysBeforeMonth(y, 5) == DaysBeforeMonth(y, 4) + 30;
    assert DaysBeforeMonth(y, 6) == DaysBeforeMonth(y, 5) + 31;
    assert DaysBeforeMonth(y, 7) == DaysBeforeMonth(y, 6) + 30;
    assert DaysBeforeMonth(y, 8) == DaysBeforeMonth(y, 7) + 31;
    assert DaysBeforeMonth(y, 9) == DaysBeforeMonth(y, 8) + 31;
    assert DaysBeforeMonth(y, 10) == DaysBeforeMonth(y, 9) + 30;
    assert DaysBeforeMonth(y, 11) == DaysBeforeMonth(y, 10) + 31;
    assert DaysBeforeMonth(y, 12) == DaysBeforeMonth(y, 11) + 30;
  }

  /** The year window is the whole year: the last millisecond of `y` is the
      one just before the first millisecond of `y + 1`, so consecutive
      windows tile the time line with neither gap nor overlap. */
  lemma YearWindowsTile(y: nat)
    ensures YearEnd(y) + 1 == YearStart(y + 1)
    ensures YearEnd(y) - YearStart(y) + 1 == DaysInYear(y) * MsPerDay
  {
    DecemberEndsYear(y);
    DaysBeforeNextYear(y);
  }

  /** Years further apart start further apart. */
  lemma {:induction false} YearStartMonotone(y1: nat, y2: nat)
    requires y1 <= y2
    ensures YearStart(y1) <= YearStart(y2)
    decreases y2 - y1
  {
    if y1 < y2 {
      YearStartMonotone(y1 + 1, y2);
      YearWindowsTile(y1);
    }
  }

  /** The windows of two different years share no instant. */
  lemma YearWindowsDisjoint(y1: nat, y2: nat, t: Timestamp)
    requires y1 != y2
    requires YearStart(y1) <= t <= YearEnd(y1)
    ensures !(YearStart(y2) <= t <= YearEnd(y2))
  {
    if y1 < y2 {
      YearWindowsTile(y1);
      YearStartMonotone(y1 + 1, y2);
    } else {
      YearWindowsTile(y2);
      YearStartMonotone(y2 + 1, y1);
    }
  }

  /** The day count grows year by year by exactly the length of the year
      just finished. */
  lemma DaysBeforeNextYear(y: nat)
    ensures DaysBeforeYear(y + 1) == DaysBeforeYear(y) + DaysInYear(y)
  {
    StepBy4(y);
    StepBy100(y);
    StepBy400(y);
    CenturiesAreQuadrennial(y);
  }

  /** One more year adds one to the count of multiples of 4 below it exactly
      when the year itself is one; likewise for 100 and 400. */
  lemma StepBy4(y: nat)
    ensures (y + 4) / 4 == (y + 3) / 4 + (if y % 4 == 0 then 1 else 0)
  {
    assert y == 4 * (y / 4) + y % 4;
  }

  lemma StepBy100(y: nat)
    ensures (y + 100) / 100 == (y + 99) / 100 + (if y % 100 == 0 then 1 else 0)
  {
    assert y == 100 * (y / 100) + y % 100;
  }

  lemma StepBy400(y: nat)
    ensures (y + 400) / 400 == (y + 399) / 400 + (if y % 400 == 0 then 1 else 0)
  {
    assert y == 400 * (y / 400) + y % 400;
  }

  /** Every multiple of 400 is one of 100, and every multiple of 100 one of 4. */
  lemma CenturiesAreQuadrennial(y: nat)
    ensures y % 400 == 0 ==> y % 100 == 0
    ensures y % 100 == 0 ==> y % 4 == 0
  {
    if y % 400 == 0 {
      assert y == 100 * (4 * (y / 400));
    }
    if y % 100 == 0 {
      assert y == 4 * (25 * (y / 100));
    }
  }

  /** The epoch itself: 1970 starts at instant zero, and 2000 starts
      946 684 800 000 ms later, as `Date.UTC(2000, 0, 1)` reports. */
  lemma KnownYearStarts()
    ensures YearStart(1970) == 0
    ensures YearStart(2000) == 946_684_800_000
  {
  }
}

=== FILE: catalog.dfy ===
/** The movie store: documents of the `movies` and `actors` collections, and
    the filter documents the controller hands to `find` / `findOne`. */
module Catalog {
  import opened Options
  import opened Text
  import opened Calendar

  /** A document identifier (`_id`). The store mints them from a counter. */
  type Id = nat

  /** The fields of a movie as the schema names them (`release_date` is
      `releaseDate`, `bookings_count` is `bookingsCount`). `None` is an absent
      or `null` field. The same record is the body of a create request, where
      `None` is a field that was not sent. */
  datatype MovieData = MovieData(
    title: Option<string>,
    description: Option<string>,
    genre: Option<seq<string>>,
    director: Option<Id>,
    producers: Option<seq<string>>,
    cast: Option<seq<Id>>,
    runtime: Option<int>,
    language: Option<string>,
    rating: Option<int>,
    ageRating: Option<string>,
    releaseDate: Option<Timestamp>,
    trailer: Option<string>,
    poster: Option<string>,
    country: Option<string>,
    status: Option<string>,
    bookingsCount: Option<int>)

  /** A stored movie document. */
  datatype Movie = Movie(id: Id, data: MovieData)

  /** A stored actor document; `cast` and `director` refer to these by id. */
  datatype Actor = Actor(id: Id, name: string, image: string)

  /** Both collections and the next fresh id. The sequence order is the
      order queries without a sort see; MongoDB promises no such natural
      order, and the model assumes it is insertion order. */
  datatype Db = Db(movies: seq<Movie>, actors: seq<Actor>, nextId: Id)

  /** The store's own guarantee about `_id`: every id is distinct and below
      the counter, so ids minted from the counter are fresh. */
  predicate Valid(db: Db) {
    && (forall i :: 0 <= i < |db.movies| ==> db.movies[i].id < db.nextId)
    && (forall i, j :: 0 <= i < j < |db.movies| ==> db.movies[i].id != db.movies[j].id)
  }

  /** JavaScript truthiness of an optional string: sent and not `""`. */
  predicate TruthyText(s: Option<string>) {
    s.Some? && s.value != ""
  }

  /** JavaScript truthiness of an optional number: sent and not `0`. */
  predicate TruthyNumber(n: Option<int>) {
    n.Some? && n.value != 0
  }

  /** The titles of some movies, in order. */
  function Titles(movies: seq<Movie>): (r: seq<Option<string>>)
    ensures |r| == |movies|
    ensures forall i :: 0 <= i < |movies| ==> r[i] == movies[i].data.title
  {
    seq(|movies|, i requires 0 <= i < |movies| => movies[i].data.title)
  }

  /** The filter documents the controller builds. Patterns are taken
      literally (regular-expression metacharacters are not modelled). */
  datatype Query =
    | TitleLike(pattern: string)               // { title: /^pattern$/i }
    | GenreLike(pattern: string)               // { genre: /^pattern$/i }
    | ReleasedWithin(from: Timestamp, to: Timestamp)
                                               // { release_date: { $gte: from, $lte: to } }
    | StatusIs(status: string)                 // { status }
    | CastOrDirector(actor: Id)                // { $or: [{ cast: actor }, { director: actor }] }
    | CastOrDirectorIn(actors: seq<Id>)        // { $or: [{ cast: { $in } }, { director: { $in } }] }
    | TitleIn(titles: seq<Option<string>>)     // { title: { $in: titles } }
    | TitleIs(title: string)                   // { title }
    | IdIs(id: Id)                             // findById(id)

  /** Whether one document matches a filter. An array field matches when one
      of its elements does; an absent field matches only `$in` with `null`. */
  predicate Satisfies(m: Movie, q: Query) {
    var d := m.data;
    match q
    case TitleLike(p) => d.title.Some? && EqualsIgnoreCase(d.title.value, p)
    case GenreLike(p) => d.genre.Some? && exists g :: g in d.genre.value && EqualsIgnoreCase(g, p)
    case ReleasedWithin(lo, hi) => d.releaseDate.Some? && lo <= d.releaseDate.value <= hi
    case StatusIs(s) => d.status == Some(s)
    case CastOrDirector(a) => (d.cast.Some? && a in d.cast.value) || d.director == Some(a)
    case CastOrDirectorIn(ids) =>
      (d.cast.Some? && exists a :: a in ids && a in d.cast.value)
      || (d.director.Some? && d.director.value in ids)
    case TitleIn(ts) => d.title in ts
    case TitleIs(t) => d.title == Some(t)
    case IdIs(id) => m.id == id
  }

  /** `Movie.find(q)`: the matching documents in natural order. */
  function Find(movies: seq<Movie>, q: Query): (r: seq<Movie>)
    ensures |r| <= |movies|
    ensures forall m :: m in r <==> m in movies && Satisfies(m, q)
    ensures forall m :: multiset(r)[m] == if Satisfies(m, q) then multiset(movies)[m] else 0
  {
    if |movies| == 0 then []
    else
      var rest := Find(movies[1..], q);
      assert movies == [movies[0]] + movies[1..];
      if Satisfies(movies[0], q) then [movies[0]] + rest else rest
  }

  /** `Movie.findOne(q)`: the first matching document in natural order. */
  function FindOne(movies: seq<Movie>, q: Query): (r: Option<nat>)
    ensures r.Some? ==> r.value < |movies| && Satisfies(movies[r.value], q)
    ensures r.Some? ==> forall j :: 0 <= j < r.value ==> !Satisfies(movies[j], q)
    ensures r.None? <==> forall m :: m in movies ==> !Satisfies(m, q)
  {
    if |movies| == 0 then None
    else if Satisfies(movies[0], q) then Some(0)
    else
      match FindOne(movies[1..], q)
      case None => None
      case Some(k) => Some(k + 1)
  }

  /** Filtering a concatenation filters each part: `find` keeps natural order. */
  lemma {:induction false} FindAppend(a: seq<Movie>, b: seq<Movie>, q: Query)
    ensures Find(a + b, q) == Find(a, q) + Find(b, q)
  {
    if |a| == 0 {
      assert a + b == b;
    } else {
      var x, rest := a[0], a[1..];
      assert a + b == [x] + (rest + b);
      assert a == [x] + rest;
      FindAppend(rest, b, q);
      if Satisfies(x, q) {
        calc {
          Find(a + b, q);
          [x] + Find(rest + b, q);
          [x] + (Find(rest, q) + Find(b, q));
          ([x] + Find(rest, q)) + Find(b, q);
          Find(a, q) + Find(b, q);
        }
      }
    }
  }

  /** In a valid store an id names at most one movie, so the first movie with
      that id is the only one. */
  lemma IdIsUnique(db: Db, id: Id, k: nat)
    requires Valid(db)
    requires FindOne(db.movies, IdIs(id)) == Some(k)
    ensures forall j :: 0 <= j < |db.movies| && j != k ==> db.movies[j].id != id
  {
  }
}

=== FILE: genres.dfy ===
/** The genre-count aggregation: `$unwind` the genre lists, `$group` by genre
    value counting one per entry, `$sort` by that count, largest first. */
module Genres {
  import opened Catalog

  /** One output document of the aggregation: `{ _id: genre, total_movies }`. */
  datatype GenreCount = GenreCount(genre: string, total: nat)

  /** The genre list of a movie; an absent list unwinds to nothing. */
  function GenresOf(m: Movie): seq<string> {
    if m.data.genre.Some? then m.data.genre.value else []
  }

  /** `$unwind: "$genre"`: one entry per genre element, in store order. */
  function Unwind(movies: seq<Movie>): (r: seq<string>)
    ensures forall g :: g in r <==> exists m :: m in movies && g in GenresOf(m)
  {
    if |movies| == 0 then []
    else
      var rest := Unwind(movies[1..]);
      assert forall m :: m in movies <==> m == movies[0] || m in movies[1..];
      GenresOf(movies[0]) + rest
  }

  /** One movie unwinds to its genre list, element by element, repeats kept. */
  lemma UnwindOne(m: Movie)
    ensures Unwind([m]) == GenresOf(m)
  {
  }

  /** `$unwind` works movie by movie: unwinding a concatenation unwinds each
      part in turn, so every genre element gives exactly one entry. */
  lemma {:induction false} UnwindAppend(a: seq<Movie>, b: seq<Movie>)
    ensures Unwind(a + b) == Unwind(a) + Unwind(b)
  {
    if |a| == 0 {
      assert a + b == b;
    } else {
      assert (a + b)[0] == a[0];
      assert (a + b)[1..] == a[1..] + b;
      UnwindAppend(a[1..], b);
    }
  }

  /** The distinct values of `s`, each once, in order of first appearance. */
  function Distinct(s: seq<string>): (r: seq<string>)
    ensures forall g :: multiset(r)[g] == if g in s then 1 else 0
  {
    if |s| == 0 then []
    else
      var prefix, x := s[..|s| - 1], s[|s| - 1];
      var d := Distinct(prefix);
      assert s == prefix + [x];
      if x in d then d else d + [x]
  }

  /** The genre of each group, in order. */
  function Keys(gs: seq<GenreCount>): (r: seq<string>)
    ensures |r| == |gs|
    ensures forall i :: 0 <= i < |gs| ==> r[i] == gs[i].genre
  {
    if |gs| == 0 then [] else [gs[0].genre] + Keys(gs[1..])
  }

  /** `$group`: one group per key, counting the entries equal to it. */
  function Tally(keys: seq<string>, entries: seq<string>): (r: seq<GenreCount>)
    ensures |r| == |keys|
    ensures forall i :: 0 <= i < |keys| ==> r[i] == GenreCount(keys[i], multiset(entries)[keys[i]])
  {
    seq(|keys|, i requires 0 <= i < |keys| => GenreCount(keys[i], multiset(entries)[keys[i]]))
  }

  /** The sum of the groups' counts. */
  function Sum(gs: seq<GenreCount>): nat {
    if |gs| == 0 then 0 else gs[0].total + Sum(gs[1..])
  }

  /** Counts never increase along the sequence. */
  predicate NonIncreasing(gs: seq<GenreCount>) {
    forall i, j :: 0 <= i < j < |gs| ==> gs[i].total >= gs[j].total
  }

  /** Places `c` before the first group with a count not above its own. */
  function Insert(c: GenreCount, gs: seq<GenreCount>): (r: seq<GenreCount>)
    ensures multiset(r) == multiset(gs) + multiset{c}
    ensures r[0] == c || (|gs| > 0 && r[0] == gs[0])
  {
    if |gs| == 0 || c.total >= gs[0].total then
      [c] + gs
    else
      assert gs == [gs[0]] + gs[1..];
      [gs[0]] + Insert(c, gs[1..])
  }

  /** Inserting into a sequence sorted by count keeps it sorted. */
  lemma {:induction false} InsertKeepsOrder(c: GenreCount, gs: seq<GenreCount>)
    requires NonIncreasing(gs)
    ensures NonIncreasing(Insert(c, gs))
  {
    if |gs| > 0 && c.total < gs[0].total {
      var rest := Insert(c, gs[1..]);
      InsertKeepsOrder(c, gs[1..]);
      var r := [gs[0]] + rest;
      assert Insert(c, gs) == r;
      forall i, j | 0 <= i < j < |r|
        ensures r[i].total >= r[j].total
      {
        if i > 0 {
          assert r[i] == rest[i - 1];
        } else {
          assert rest[0].total >= rest[j - 1].total;
        }
      }
    }
  }

  /** The keys and the sum of a group followed by more groups. */
  lemma KeysAndSumCons(c: GenreCount, gs: seq<GenreCount>)
    ensures Keys([c] + gs) == [c.genre] + Keys(gs)
    ensures Sum([c] + gs) == c.total + Sum(gs)
  {
    assert ([c] + gs)[1..] == gs;
  }

  /** Inserting a group adds its genre to the keys. */
  lemma {:induction false} InsertKeys(c: GenreCount, gs: seq<GenreCount>)
    ensures multiset(Keys(Insert(c, gs))) == multiset(Keys(gs)) + multiset{c.genre}
  {
    if |gs| == 0 || c.total >= gs[0].total {
      assert Insert(c, gs) == [c] + gs;
      ConsKeysMultiset(c, gs);
    } else {
      var g, tail := gs[0], gs[1..];
      assert gs == [g] + tail;
      assert Insert(c, gs) == [g] + Insert(c, tail);
      InsertKeys(c, tail);
      ConsKeysMultiset(g, Insert(c, tail));
      ConsKeysMultiset(g, tail);
    }
  }

  /** Inserting a group adds its count to the sum. */
  lemma {:induction false} InsertSum(c: GenreCount, gs: seq<GenreCount>)
    ensures Sum(Insert(c, gs)) == Sum(gs) + c.total
  {
    if |gs| == 0 || c.total >= gs[0].total {
      KeysAndSumCons(c, gs);
    } else {
      var g, tail := gs[0], gs[1..];
      var rest := Insert(c, tail);
      InsertSum(c, tail);
      assert Insert(c, gs) == [g] + rest;
      assert gs == [g] + tail;
      KeysAndSumCons(g, rest);
      KeysAndSumCons(g, tail);
    }
  }

  /** `$sort: { total_movies: -1 }`, an insertion sort that keeps groups with
      equal counts in their original order. */
  function SortByTotal(gs: seq<GenreCount>): (r: seq<GenreCount>)
    ensures NonIncreasing(r)
    ensures multiset(r) == multiset(gs)
  {
    if |gs| == 0 then []
    else
      assert gs == [gs[0]] + gs[1..];
      var rest := SortByTotal(gs[1..]);
      InsertKeepsOrder(gs[0], rest);
      Insert(gs[0], rest)
  }

  /** Sorting keeps the multiset of genres and the sum of the counts. */
  lemma SortKeysAndSum(gs: seq<GenreCount>)
    ensures multiset(Keys(SortByTotal(gs))) == multiset(Keys(gs))
    ensures Sum(SortByTotal(gs)) == Sum(gs)
  {
    SortKeys(gs);
    SortSum(gs);
  }

  /** Sorting neither adds nor drops a genre. */
  lemma {:induction false} SortKeys(gs: seq<GenreCount>)
    ensures multiset(Keys(SortByTotal(gs))) == multiset(Keys(gs))
  {
    if |gs| > 0 {
      var rest := SortByTotal(gs[1..]);
      assert SortByTotal(gs) == Insert(gs[0], rest);
      SortKeys(gs[1..]);
      InsertKeys(gs[0], rest);
      KeysFirst(gs);
    }
  }

  /** The genres of a non-empty list: its first group's and the rest's. */
  lemma KeysFirst(gs: seq<GenreCount>)
    requires |gs| > 0
    ensures multiset(Keys(gs)) == multiset(Keys(gs[1..])) + multiset{gs[0].genre}
  {
    assert gs == [gs[0]] + gs[1..];
    ConsKeysMultiset(gs[0], gs[1..]);
  }

  /** The genres of a list with one more group in front. */
  lemma ConsKeysMultiset(c: GenreCount, gs: seq<GenreCount>)
    ensures multiset(Keys([c] + gs)) == multiset(Keys(gs)) + multiset{c.genre}
  {
    KeysAndSumCons(c, gs);
  }

  /** Sorting keeps the sum of the counts. */
  lemma {:induction false} SortSum(gs: seq<GenreCount>)
    ensures Sum(SortByTotal(gs)) == Sum(gs)
  {
    if |gs| > 0 {
      var c, tail := gs[0], gs[1..];
      var rest := SortByTotal(tail);
      assert SortByTotal(gs) == Insert(c, rest);
      SortSum(tail);
      InsertSum(c, rest);
    }
  }

  /** The whole pipeline. */
  function CountByGenre(movies: seq<Movie>): seq<GenreCount> {
    var entries := Unwind(movies);
    SortByTotal(Tally(Distinct(entries), entries))
  }

  /** The sum of a concatenation is the sum of its parts. */
  lemma {:induction false} SumAppend(a: seq<GenreCount>, b: seq<GenreCount>)
    ensures Sum(a + b) == Sum(a) + Sum(b)
  {
    if |a| > 0 {
      assert (a + b)[1..] == a[1..] + b;
      SumAppend(a[1..], b);
    } else {
      assert a + b == b;
    }
  }

  /** Tallying a concatenation of keys tallies each part. */
  lemma TallyAppend(k1: seq<string>, k2: seq<string>, entries: seq<string>)
    ensures Tally(k1 + k2, entries) == Tally(k1, entries) + Tally(k2, entries)
  {
  }

  /** Adding one entry adds one to the group of its value, if there is one. */
  lemma {:induction false} TallyAddEntry(keys: seq<string>, entries: seq<string>, x: string)
    ensures Sum(Tally(keys, entries + [x])) == Sum(Tally(keys, entries)) + multiset(keys)[x]
    decreases |keys|
  {
    if |keys| > 0 {
      var init, k := keys[..|keys| - 1], keys[|keys| - 1];
      assert keys == init + [k];
      TallyAppend(init, [k], entries + [x]);
      TallyAppend(init, [k], entries);
      SumAppend(Tally(init, entries + [x]), Tally([k], entries + [x]));
      SumAppend(Tally(init, entries), Tally([k], entries));
      TallyAddEntry(init, entries, x);
      assert multiset(entries + [x])[k] == multiset(entries)[k] + multiset([x])[k];
      assert multiset(keys)[x] == multiset(init)[x] + multiset([k])[x];
    }
  }

  /** Grouping by every distinct value accounts for every entry exactly once. */
  lemma {:induction false} TallyOfDistinctSums(entries: seq<string>)
    ensures Sum(Tally(Distinct(entries), entries)) == |entries|
    decreases |entries|
  {
    if |entries| > 0 {
      var prefix, x := entries[..|entries| - 1], entries[|entries| - 1];
      assert entries == prefix + [x];
      var d := Distinct(prefix);
      TallyOfDistinctSums(prefix);
      TallyAddEntry(d, prefix, x);
      if x !in d {
        TallyAppend(d, [x], entries);
        SumAppend(Tally(d, entries), Tally([x], entries));
        assert multiset(prefix)[x] == 0;
      }
    }
  }

  /** Tallying keeps the keys, in order. */
  lemma KeysOfTally(keys: seq<string>, entries: seq<string>)
    ensures Keys(Tally(keys, entries)) == keys
  {
  }

  /** Every group produced from the distinct entries counts an entry that
      occurs, and counts all of its occurrences. */
  lemma GroupTotals(entries: seq<string>, r: seq<GenreCount>)
    requires multiset(r) == multiset(Tally(Distinct(entries), entries))
    ensures forall i :: 0 <= i < |r| ==> 1 <= r[i].total == multiset(entries)[r[i].genre]
  {
    var d := Distinct(entries);
    var t := Tally(d, entries);
    forall i | 0 <= i < |r|
      ensures 1 <= r[i].total == multiset(entries)[r[i].genre]
    {
      assert r[i] in multiset(t);
      var k :| 0 <= k < |t| && t[k] == r[i];
      assert d[k] in multiset(d);
    }
  }

  /** What `countMoviesByGenre` returns, stated against the unwound entries:
      each genre that occurs is one group and nothing else is, each group's
      count is the number of genre-list entries equal to it (at least one),
      the counts add up to the number of entries, and they never increase. */
  lemma CountByGenreCorrect(movies: seq<Movie>)
    ensures GroupsMatchEntries(CountByGenre(movies), Unwind(movies))
  {
    var entries := Unwind(movies);
    GroupingCorrect(entries);
  }

  /** `r` is a correct `$group`/`$sort` result over `entries`: each occurring
      genre exactly once, each count the number of entries equal to it, counts
      non-increasing and adding up to the number of entries, and empty exactly
      when there are no entries. */
  ghost predicate GroupsMatchEntries(r: seq<GenreCount>, entries: seq<string>) {
    && (forall g :: multiset(Keys(r))[g] == if g in entries then 1 else 0)
    && (forall i :: 0 <= i < |r| ==> 1 <= r[i].total == multiset(entries)[r[i].genre])
    && NonIncreasing(r)
    && Sum(r) == |entries|
    && (|r| == 0 <==> |entries| == 0)
  }

  /** The grouping stages after `$unwind`, for any sequence of entries. */
  lemma GroupingCorrect(entries: seq<string>)
    ensures GroupsMatchEntries(SortByTotal(Tally(Distinct(entries), entries)), entries)
  {
    var r := SortByTotal(Tally(Distinct(entries), entries));
    GroupKeys(entries);
    GroupSum(entries);
    GroupTotals(entries, r);
    GroupsExist(entries);
  }

  /** Each value that occurs is the genre of exactly one group. */
  lemma GroupKeys(entries: seq<string>)
    ensures forall g :: multiset(Keys(SortByTotal(Tally(Distinct(entries), entries))))[g]
                        == if g in entries then 1 else 0
  {
    var d := Distinct(entries);
    SortKeysAndSum(Tally(d, entries));
    KeysOfTally(d, entries);
  }

  /** The counts add up to the number of entries. */
  lemma GroupSum(entries: seq<string>)
    ensures Sum(SortByTotal(Tally(Distinct(entries), entries))) == |entries|
  {
    TallyOfDistinctSums(entries);
    SortKeysAndSum(Tally(Distinct(entries), entries));
  }

  /** There is a group exactly when there is an entry. */
  lemma GroupsExist(entries: seq<string>)
    ensures |SortByTotal(Tally(Distinct(entries), entries))| == 0 <==> |entries| == 0
  {
    var d := Distinct(entries);
    var t := Tally(d, entries);
    var r := SortByTotal(t);
    assert |r| == |t| by {
      assert |multiset(r)| == |multiset(t)|;
    }
    if |entries| > 0 {
      assert multiset(d)[entries[0]] == 1;
    }
  }
}

=== FILE: http.dfy ===
/** What a handler sends back: a status code and a JSON body. */
module Http {
  import opened Options
  import opened Catalog
  import opened Genres

  /** The JSON bodies the controller sends. `Message` and `Error` are the
      `{ message }` and `{ error }` objects; `Listing` is `{ movies,
      total_movies }` (`totalMovies` for the date range); `Null` is `null`. */
  datatype Body =
    | Message(message: string)
    | Error(error: string)
    | One(movie: Movie)
    | All(movies: seq<Movie>)
    | Listing(movies: seq<Movie>, total: nat)
    | Counts(groups: seq<GenreCount>)
    | BatchReport(insertedCount: nat, skippedCount: nat,
                  inserted: seq<Movie>, skipped: seq<Option<string>>)
    | Null

  datatype Response = Response(status: nat, body: Body)

  /** A mutating handler's response together with the store it leaves. */
  datatype Outcome = Outcome(response: Response, db: Db)

  const Ok: nat := 200
  const Created: nat := 201
  const BadRequest: nat := 400
  const NotFound: nat := 404
  const ServerError: nat := 500
}

=== FILE: mutations.dfy ===
/** The create handlers of the movie controller: create one and create
    many. Each returns its response and the store it leaves behind. */
module Mutations {
  import opened Options
  import opened Catalog
  import opened Http

  // ---------------------------------------------------------------- create

  /** `!title || !description || ... || !status` is false: the thirteen
      required fields are all truthy. `trailer` and `poster` are optional.
      An array is truthy even when empty. */
  predicate RequiredFieldsPresent(b: MovieData) {
    && TruthyText(b.title) && TruthyText(b.description) && b.genre.Some?
    && b.director.Some? && b.producers.Some? && b.cast.Some?
    && TruthyNumber(b.runtime) && TruthyText(b.language) && TruthyNumber(b.rating)
    && TruthyText(b.ageRating) && b.releaseDate.Some? && TruthyText(b.country)
    && TruthyText(b.status)
  }

  /** The document `new Movie({...})` is given: the fifteen fields the handler
      destructures from the body. `bookings_count` is not among them. */
  function Destructured(b: MovieData): (d: MovieData)
    ensures d.bookingsCount.None?
    ensures d.(bookingsCount := b.bookingsCount) == b
  {
    b.(bookingsCount := None)
  }

  /** `POST /movies`. Refuses a body missing a required field, then a title
      some stored movie already has exactly (letter case counts), and
      otherwise stores one new movie under a fresh id. */
  function AddMovie(db: Db, body: MovieData): (r: Outcome)
    ensures r.response.status in {Created, BadRequest}
    ensures !RequiredFieldsPresent(body) ==>
      r == Outcome(Response(BadRequest, Error("All required fields must be provided.")), db)
    ensures RequiredFieldsPresent(body) && (exists m :: m in db.movies && m.data.title == body.title) ==>
      r == Outcome(Response(BadRequest, Error("Movie already exists")), db)
    ensures r.response.status == Created <==>
      RequiredFieldsPresent(body) && forall m :: m in db.movies ==> m.data.title != body.title
    ensures r.response.status == Created ==>
      && r.response.body.One?
      && var saved := r.response.body.movie;
      && saved.id == db.nextId && saved.data == Destructured(body)
      && r.db == Db(db.movies + [saved], db.actors, db.nextId + 1)
    ensures Valid(db) ==> Valid(r.db)
  {
    if !RequiredFieldsPresent(body) then
      Outcome(Response(BadRequest, Error("All required fields must be provided.")), db)
    else if FindOne(db.movies, TitleIs(body.title.value)).Some? then
      Outcome(Response(BadRequest, Error("Movie already exists")), db)
    else
      var saved := Movie(db.nextId, Destructured(body));
      Outcome(Response(Created, One(saved)), Db(db.movies + [saved], db.actors, db.nextId + 1))
  }

  // ---------------------------------------------------------- create many

  /** `movies.map(movie => movie.title)`. */
  function ItemTitles(items: seq<MovieData>): (r: seq<Option<string>>)
    ensures |r| == |items|
    ensures forall i :: 0 <= i < |items| ==> r[i] == items[i].title
  {
    seq(|items|, i requires 0 <= i < |items| => items[i].title)
  }

  /** The stored fields of some movies, in order. */
  function DataOf(movies: seq<Movie>): (r: seq<MovieData>)
    ensures |r| == |movies|
    ensures forall i :: 0 <= i < |movies| ==> r[i] == movies[i].data
  {
    seq(|movies|, i requires 0 <= i < |movies| => movies[i].data)
  }

  /** `movies.filter(movie => !existingTitles.includes(movie.title))`. */
  function Unlisted(items: seq<MovieData>, titles: seq<Option<string>>): (r: seq<MovieData>)
    ensures forall x :: multiset(r)[x] == if x.title in titles then 0 else multiset(items)[x]
  {
    if |items| == 0 then []
    else
      assert items == [items[0]] + items[1..];
      var rest := Unlisted(items[1..], titles);
      if items[0].title in titles then rest else [items[0]] + rest
  }

  /** A single item is kept exactly when its title is not listed. */
  lemma UnlistedOne(item: MovieData, titles: seq<Option<string>>)
    ensures Unlisted([item], titles) == if item.title in titles then [] else [item]
  {
  }

  /** The filter works item by item: filtering a concatenation filters each
      part in turn, so the kept items stay in input order. */
  lemma {:induction false} UnlistedAppend(a: seq<MovieData>, b: seq<MovieData>, titles: seq<Option<string>>)
    ensures Unlisted(a + b, titles) == Unlisted(a, titles) + Unlisted(b, titles)
  {
    if |a| == 0 {
      assert a + b == b;
    } else {
      assert (a + b)[0] == a[0];
      assert (a + b)[1..] == a[1..] + b;
      UnlistedAppend(a[1..], b, titles);
    }
  }

  /** `insertMany`: each item stored as given under the next fresh id. */
  function Mint(items: seq<MovieData>, from: Id): (r: seq<Movie>)
    ensures |r| == |items|
    ensures forall k :: 0 <= k < |items| ==> r[k] == Movie(from + k, items[k])
  {
    seq(|items|, k requires 0 <= k < |items| => Movie(from + k, items[k]))
  }

  /** The titles of a movie followed by more movies. */
  lemma TitlesCons(m: Movie, movies: seq<Movie>)
    ensures Titles([m] + movies) == [m.data.title] + Titles(movies)
  {
  }

  /** The titles of `find({ title: { $in: titles } })`: per title value, as
      many as the store holds when the value is listed, none otherwise. */
  lemma {:induction false} TitlesOfTitleIn(movies: seq<Movie>, titles: seq<Option<string>>)
    ensures forall t :: multiset(Titles(Find(movies, TitleIn(titles))))[t]
                        == if t in titles then multiset(Titles(movies))[t] else 0
  {
    if |movies| > 0 {
      var m := movies[0];
      var rest := Find(movies[1..], TitleIn(titles));
      TitlesOfTitleIn(movies[1..], titles);
      TitlesFirst(movies);
      FindTitleInFirst(movies, titles);
      if m.data.title in titles {
        TitlesCons(m, rest);
        assert multiset(Titles(Find(movies, TitleIn(titles))))
               == multiset{m.data.title} + multiset(Titles(rest));
      }
    }
  }

  /** The titles of a non-empty list: its first movie's and the rest's. */
  lemma TitlesFirst(movies: seq<Movie>)
    requires |movies| > 0
    ensures multiset(Titles(movies)) == multiset{movies[0].data.title} + multiset(Titles(movies[1..]))
  {
    assert movies == [movies[0]] + movies[1..];
    TitlesCons(movies[0], movies[1..]);
  }

  /** One step of the `$in` look-up: the first movie is found exactly when
      its title is listed. */
  lemma FindTitleInFirst(movies: seq<Movie>, titles: seq<Option<string>>)
    requires |movies| > 0
    ensures Find(movies, TitleIn(titles))
            == if movies[0].data.title in titles then [movies[0]] + Find(movies[1..], TitleIn(titles))
               else Find(movies[1..], TitleIn(titles))
  {
    assert Satisfies(movies[0], TitleIn(titles)) <==> movies[0].data.title in titles;
  }


  /** Appending minted movies to a valid store keeps it valid. */
  lemma MintKeepsValid(db: Db, items: seq<MovieData>)
    ensures Valid(db) ==> Valid(Db(db.movies + Mint(items, db.nextId), db.actors, db.nextId + |items|))
  {
  }

  /** The items kept are those whose title is not stored: an item's own
      title is always among the looked-up titles, so testing it against the
      titles found is testing it against every stored title. */
  lemma UnlistedMeansUnstored(movies: seq<Movie>, items: seq<MovieData>)
    ensures var found := Titles(Find(movies, TitleIn(ItemTitles(items))));
      forall x :: multiset(Unlisted(items, found))[x]
                  == if x.title in Titles(movies) then 0 else multiset(items)[x]
  {
    var found := Titles(Find(movies, TitleIn(ItemTitles(items))));
    TitlesOfTitleIn(movies, ItemTitles(items));
    forall x | x in items
      ensures x.title in found <==> x.title in Titles(movies)
    {
      var i :| 0 <= i < |items| && items[i] == x;
      assert ItemTitles(items)[i] == x.title;
      assert x.title in found <==> multiset(found)[x.title] > 0;
    }
  }

  /** Filtering against two title lists that agree on every item's title
      keeps the same items. */
  lemma {:induction false} UnlistedAgrees(items: seq<MovieData>, t1: seq<Option<string>>, t2: seq<Option<string>>)
    requires forall i :: 0 <= i < |items| ==> (items[i].title in t1 <==> items[i].title in t2)
    ensures Unlisted(items, t1) == Unlisted(items, t2)
  {
    if |items| > 0 {
      var rest := items[1..];
      assert forall i :: 0 <= i < |rest| ==> rest[i] == items[i + 1];
      UnlistedAgrees(rest, t1, t2);
    }
  }

  /** The titles found by the `$in` look-up agree with the whole store on
      every item's title. */
  lemma FoundTitlesAgree(movies: seq<Movie>, items: seq<MovieData>)
    ensures var found := Titles(Find(movies, TitleIn(ItemTitles(items))));
      forall i :: 0 <= i < |items| ==> (items[i].title in found <==> items[i].title in Titles(movies))
  {
    var found := Titles(Find(movies, TitleIn(ItemTitles(items))));
    TitlesOfTitleIn(movies, ItemTitles(items));
    forall i | 0 <= i < |items|
      ensures items[i].title in found <==> items[i].title in Titles(movies)
    {
      assert ItemTitles(items)[i] == items[i].title;
      assert items[i].title in found <==> multiset(found)[items[i].title] > 0;
    }
  }

  /** Minting keeps each item's fields. */
  lemma DataOfMint(items: seq<MovieData>, from: Id)
    ensures DataOf(Mint(items, from)) == items
  {
  }

  /** The body of the batch handler once `movies` is an array: looks up the
      stored movies whose title is among the items' titles, inserts the items
      whose title none of them has, and reports both counts. */
  function InsertBatch(db: Db, items: seq<MovieData>): (r: Outcome)
    ensures
      && r.response.status == Ok && r.response.body.BatchReport?
      && var report := r.response.body;
      && r.db == Db(db.movies + report.inserted, db.actors, db.nextId + |report.inserted|)
      && report.insertedCount == |report.inserted|
      && report.skippedCount == |report.skipped|
      && (forall k :: 0 <= k < |report.inserted| ==> report.inserted[k].id == db.nextId + k)
      && DataOf(report.inserted) == Unlisted(items, Titles(db.movies))
      && (forall x :: multiset(DataOf(report.inserted))[x]
                      == if x.title in Titles(db.movies) then 0 else multiset(items)[x])
      && (forall t :: multiset(report.skipped)[t]
                      == if t in ItemTitles(items) then multiset(Titles(db.movies))[t] else 0)
    ensures Valid(db) ==> Valid(r.db)
  {
    FoundTitlesAgree(db.movies, items);
    UnlistedAgrees(items, Titles(Find(db.movies, TitleIn(ItemTitles(items)))), Titles(db.movies));
    var existingTitles := Titles(Find(db.movies, TitleIn(ItemTitles(items))));
    var unique := Unlisted(items, existingTitles);
    var inserted := Mint(unique, db.nextId);
    TitlesOfTitleIn(db.movies, ItemTitles(items));
    UnlistedMeansUnstored(db.movies, items);
    DataOfMint(unique, db.nextId);
    MintKeepsValid(db, unique);
    Outcome(Response(Ok, BatchReport(|inserted|, |existingTitles|, inserted, existingTitles)),
            Db(db.movies + inserted, db.actors, db.nextId + |inserted|))
  }

  /** `POST /movies/addMultipleMovies`. Refuses a missing or non-array
      `movies`; otherwise inserts the items whose title is not stored and
      reports `insertedCount` and `skippedCount`, the latter being the
      number of stored movies found, not the number of items dropped. */
  function AddMultipleMovies(db: Db, batch: Option<seq<MovieData>>): (r: Outcome)
    ensures batch.None? ==>
      r == Outcome(Response(BadRequest, Error("An array of movies must be provided.")), db)
    ensures batch.Some? ==>
      && r.response.status == Ok && r.response.body.BatchReport?
      && var report, items := r.response.body, batch.value;
      && r.db == Db(db.movies + report.inserted, db.actors, db.nextId + |report.inserted|)
      && report.insertedCount == |report.inserted|
      && report.skippedCount == |report.skipped|
      && (forall k :: 0 <= k < |report.inserted| ==> report.inserted[k].id == db.nextId + k)
      && DataOf(report.inserted) == Unlisted(items, Titles(db.movies))
      && (forall x :: multiset(DataOf(report.inserted))[x]
                      == if x.title in Titles(db.movies) then 0 else multiset(items)[x])
      && (forall t :: multiset(report.skipped)[t]
                      == if t in ItemTitles(items) then multiset(Titles(db.movies))[t] else 0)
    ensures Valid(db) ==> Valid(r.db)
  {
    match batch
    case None => Outcome(Response(BadRequest, Error("An array of movies must be provided.")), db)
    case Some(items) => InsertBatch(db, items)
  }
}

=== FILE: options.dfy ===
/** Optional values. `None` stands for a JavaScript `undefined` or `null`:
    a request field that was not sent, or a document field that is absent. */
module Options {

  datatype Option<+T> = None | Some(value: T) {

    /** The wrapped value, or `default` when there is none. */
    function GetOr(default: T): T {
      match this
      case Some(v) => v
      case None => default
    }
  }
}

=== FILE: properties.dfy ===
/** Properties that relate several handlers, or several calls of one. */
module Properties {
  import opened Options
  import opened Text
  import opened Calendar
  import opened Catalog
  import opened Genres
  import opened Http
  import opened Queries
  import opened Mutations
  import opened Updates

  // ------------------------------------------------------------ look-ups

  /** Two title filters equal up to letter case find the same first movie. */
  lemma {:induction false} FindOneTitleAgrees(movies: seq<Movie>, q1: string, q2: string)
    requires EqualsIgnoreCase(q1, q2)
    ensures FindOne(movies, TitleLike(q1)) == FindOne(movies, TitleLike(q2))
  {
    if |movies| > 0 {
      FindOneTitleAgrees(movies[1..], q1, q2);
      assert Satisfies(movies[0], TitleLike(q1)) == Satisfies(movies[0], TitleLike(q2));
    }
  }

  /** The title look-up does not depend on the letter case of the query. */
  lemma TitleLookupIgnoresQueryCase(db: Db, q1: string, q2: string)
    requires EqualsIgnoreCase(q1, q2)
    ensures GetMovieByTitle(db, Some(q1)) == GetMovieByTitle(db, Some(q2))
  {
    TrimEmptyIgnoresCase(q1, q2);
    if Trim(q1) != "" {
      FindByTitleIgnoresQueryCase(db, q1, q2);
      assert GetMovieByTitle(db, Some(q1)) == FindByTitle(db, q1);
      assert GetMovieByTitle(db, Some(q2)) == FindByTitle(db, q2);
    }
  }

  /** The look-up past the blank check does not depend on the query's case. */
  lemma FindByTitleIgnoresQueryCase(db: Db, q1: string, q2: string)
    requires EqualsIgnoreCase(q1, q2)
    ensures FindByTitle(db, q1) == FindByTitle(db, q2)
  {
    FindOneTitleAgrees(db.movies, q1, q2);
  }

  /** A year query is the date-range query over that year's window. */
  lemma YearIsDateRange(db: Db, y: nat)
    requires y < 10000
    ensures var byYear := GetMoviesByYear(db, Some(YearText(y)));
            var byRange := GetMoviesByDateRange(db, At(YearStart(y)), At(YearEnd(y)));
      && byYear.status == byRange.status
      && (byYear.status == Ok ==> byYear.body == byRange.body)
  {
    ParseYearText(y);
    var t := YearText(y);
    assert !IsSpace(t[0]);
    TrimEmptyIffBlank(t);
  }

  /** No movie is returned by the year queries of two different years. */
  lemma YearResultsDisjoint(db: Db, d1: string, d2: string, m: Movie)
    requires GetMoviesByYear(db, Some(d1)).status == Ok
    requires GetMoviesByYear(db, Some(d2)).status == Ok
    requires ParseYear(d1) != ParseYear(d2)
    ensures !(m in GetMoviesByYear(db, Some(d1)).body.movies && m in GetMoviesByYear(db, Some(d2)).body.movies)
  {
    var y1, y2 := ParseYear(d1).value, ParseYear(d2).value;
    if m in GetMoviesByYear(db, Some(d1)).body.movies && m in GetMoviesByYear(db, Some(d2)).body.movies {
      YearWindowsDisjoint(y1, y2, m.data.releaseDate.value);
    }
  }

  /** The actor-name query returns exactly the movies that the actor-id query
      returns for some actor whose name contains the query. */
  lemma ActorNameIsUnionOfActorQueries(db: Db, name: string, m: Movie)
    ensures (GetMoviesByActorName(db, name).status == Ok && m in GetMoviesByActorName(db, name).body.movies)
      <==> exists a :: a in db.actors && ContainsIgnoreCase(a.name, name)
                       && GetMoviesByActor(db, a.id).status == Ok
                       && m in GetMoviesByActor(db, a.id).body.movies
  {
    var byName := GetMoviesByActorName(db, name);
    if byName.status == Ok && m in byName.body.movies {
      var a :| a in db.actors && ContainsIgnoreCase(a.name, name) && Features(m, a.id);
      assert GetMoviesByActor(db, a.id).status == Ok;
    }
    if exists a :: a in db.actors && ContainsIgnoreCase(a.name, name)
                   && GetMoviesByActor(db, a.id).status == Ok
                   && m in GetMoviesByActor(db, a.id).body.movies {
      var a :| a in db.actors && ContainsIgnoreCase(a.name, name)
               && GetMoviesByActor(db, a.id).status == Ok
               && m in GetMoviesByActor(db, a.id).body.movies;
      assert FeaturesActorNamed(db, m, name);
    }
  }

  // ------------------------------------------------------------- creation

  /** Creating the same movie twice: the second request is refused as a
      duplicate and leaves the store as the first one left it. */
  lemma AddTwiceRejected(db: Db, body: MovieData)
    requires AddMovie(db, body).response.status == Created
    ensures var after := AddMovie(db, body).db;
      AddMovie(after, body) == Outcome(Response(BadRequest, Error("Movie already exists")), after)
  {
    var saved := AddMovie(db, body).response.body.movie;
    assert saved in AddMovie(db, body).db.movies;
  }

  /** A created movie can be fetched by the id it was given. */
  lemma AddedMovieFoundById(db: Db, body: MovieData)
    requires Valid(db)
    requires AddMovie(db, body).response.status == Created
    ensures var r := AddMovie(db, body);
      GetMovieById(r.db, db.nextId) == Response(Ok, r.response.body)
  {
    var r := AddMovie(db, body);
    assert r.db.movies[|db.movies|] == r.response.body.movie;
  }

  /** The duplicate check is case-sensitive while the title look-up is not: a
      title differing only in letter case from a stored one is accepted, and
      looking it up afterwards finds the older movie, not the new one. */
  lemma CaseVariantTitleShadowed(db: Db, body: MovieData, k: nat)
    requires Valid(db)
    requires AddMovie(db, body).response.status == Created
    requires k < |db.movies| && TitleMatches(db.movies[k], body.title.value)
    ensures var r := AddMovie(db, body);
      && GetMovieByTitle(r.db, body.title).status == Ok
      && GetMovieByTitle(r.db, body.title).body.movie != r.response.body.movie
  {
    var r := AddMovie(db, body);
    var saved := r.response.body.movie;
    var t := body.title.value;
    assert db.movies[k] in r.db.movies && r.db.movies[k] == db.movies[k];
    var s := db.movies[k].data.title.value;
    if IsBlank(t) {
      BlankIgnoresCase(s, t);
      FoldKeepsBlank(s);
      FoldKeepsBlank(t);
      assert false;
    }
  }

  /** No two stored movies share a title value. */
  ghost predicate TitlesDistinct(movies: seq<Movie>) {
    forall t :: multiset(Titles(movies))[t] <= 1
  }

  /** `addMovie` never introduces a second movie with a stored title. */
  lemma AddMovieKeepsTitlesDistinct(db: Db, body: MovieData)
    requires TitlesDistinct(db.movies)
    ensures TitlesDistinct(AddMovie(db, body).db.movies)
  {
    var r := AddMovie(db, body);
    if r.response.status == Created {
      var saved := r.response.body.movie;
      assert Titles(db.movies + [saved]) == Titles(db.movies) + [body.title];
      assert body.title !in Titles(db.movies);
    }
  }

  /** `addMultipleMovies` checks the items against the store only, not against
      each other: two items with one new title are both inserted, and the
      store then holds that title twice. */
  lemma BatchCanDuplicateTitles(db: Db, item: MovieData)
    requires item.title !in Titles(db.movies)
    ensures var r := AddMultipleMovies(db, Some([item, item]));
      r.response.body.insertedCount == 2 && !TitlesDistinct(r.db.movies)
  {
    var r := AddMultipleMovies(db, Some([item, item]));
    var inserted := r.response.body.inserted;
    TwoInserted(DataOf(inserted), item, Titles(db.movies));
    var n := |db.movies|;
    var movies := r.db.movies;
    assert movies[n] == inserted[0] && movies[n + 1] == inserted[1];
    assert DataOf(inserted)[0] == inserted[0].data && DataOf(inserted)[1] == inserted[1].data;
    RepeatedValue(Titles(movies), n, n + 1);
  }

  /** A value found at two positions occurs at least twice. */
  lemma RepeatedValue<T>(s: seq<T>, i: nat, j: nat)
    requires i < j < |s| && s[i] == s[j]
    ensures multiset(s)[s[i]] >= 2
  {
    assert s == s[..j] + [s[j]] + s[j + 1..];
    assert s[i] in s[..j];
  }

  /** An inserted list with the counts the batch handler reports, when one
      item with an unstored title is sent twice, is that item twice. */
  lemma TwoInserted(inserted: seq<MovieData>, item: MovieData, stored: seq<Option<string>>)
    requires item.title !in stored
    requires forall x :: multiset(inserted)[x] == if x.title in stored then 0 else multiset([item, item])[x]
    ensures inserted == [item, item]
  {
    assert multiset(inserted) == multiset{item, item};
    assert |inserted| == 2 by {
      assert |multiset(inserted)| == 2;
    }
    assert inserted[0] in multiset(inserted) && inserted[1] in multiset(inserted);
  }

  /** `skippedCount` counts the stored movies found, not the items dropped:
      with one movie stored under a title and that title sent twice, nothing
      is inserted, two items are dropped, and `skippedCount` is one. */
  lemma SkippedCountCountsStoredMovies(db: Db, item: MovieData)
    requires Titles(db.movies) == [item.title]
    ensures var report := AddMultipleMovies(db, Some([item, item])).response.body;
      report.insertedCount == 0 && report.skippedCount == 1
  {
    var report := AddMultipleMovies(db, Some([item, item])).response.body;
    assert ItemTitles([item, item]) == [item.title, item.title];
    OneSkipped(report.skipped, item.title, Titles(db.movies), [item, item]);
    NoneInserted(DataOf(report.inserted), item, Titles(db.movies));
  }

  /** A skipped list with the counts the batch handler reports, when the one
      title sent is stored once, holds that title once. */
  lemma OneSkipped(skipped: seq<Option<string>>, t: Option<string>, stored: seq<Option<string>>,
                   items: seq<MovieData>)
    requires stored == [t] && ItemTitles(items) == [t, t]
    requires forall u :: multiset(skipped)[u] == if u in ItemTitles(items) then multiset(stored)[u] else 0
    ensures |skipped| == 1
  {
    assert multiset(skipped) == multiset{t};
    assert |multiset(skipped)| == 1;
  }

  /** An inserted list with the counts the batch handler reports, when every
      item sent has a stored title, is empty. */
  lemma NoneInserted(inserted: seq<MovieData>, item: MovieData, stored: seq<Option<string>>)
    requires item.title in stored
    requires forall x :: multiset(inserted)[x] == if x.title in stored then 0 else multiset([item, item])[x]
    ensures |inserted| == 0
  {
    assert multiset(inserted) == multiset{};
  }

  /** No two items of a batch share a title value. */
  predicate ItemTitlesDistinct(items: seq<MovieData>) {
    forall i, j :: 0 <= i < j < |items| ==> items[i].title != items[j].title
  }

  /** The titles of the items whose title is stored, in item order. */
  function StoredOnes(items: seq<MovieData>, stored: seq<Option<string>>): (r: seq<Option<string>>)
    ensures forall t :: t in r ==> t in stored
  {
    if |items| == 0 then []
    else (if items[0].title in stored then [items[0].title] else []) + StoredOnes(items[1..], stored)
  }

  /** Every item is either stored or kept, never both. */
  lemma {:induction false} StoredOrKept(items: seq<MovieData>, stored: seq<Option<string>>)
    ensures |StoredOnes(items, stored)| + |Unlisted(items, stored)| == |items|
  {
    if |items| > 0 {
      StoredOrKept(items[1..], stored);
    }
  }

  /** With distinct item titles, each stored item title is listed once. */
  lemma {:induction false} StoredOnesCount(items: seq<MovieData>, stored: seq<Option<string>>)
    requires ItemTitlesDistinct(items)
    ensures forall t :: multiset(StoredOnes(items, stored))[t]
                        == if t in ItemTitles(items) && t in stored then 1 else 0
  {
    if |items| > 0 {
      var rest := items[1..];
      assert ItemTitlesDistinct(rest) by {
        forall i, j | 0 <= i < j < |rest| ensures rest[i].title != rest[j].title {
          assert rest[i] == items[i + 1] && rest[j] == items[j + 1];
        }
      }
      StoredOnesCount(rest, stored);
      assert ItemTitles(items) == [items[0].title] + ItemTitles(rest);
      assert items[0].title !in ItemTitles(rest) by {
        forall j | 0 <= j < |rest| ensures ItemTitles(rest)[j] != items[0].title {
          assert rest[j] == items[j + 1];
        }
      }
    }
  }

  /** A batch of distinct titles sent to a store of distinct titles, with N
      titles new and M already stored, inserts exactly N items and reports
      M skipped. */
  lemma BatchCountsNewAndStored(db: Db, items: seq<MovieData>)
    requires TitlesDistinct(db.movies) && ItemTitlesDistinct(items)
    ensures var report := AddMultipleMovies(db, Some(items)).response.body;
            var stored := Titles(db.movies);
      && report.insertedCount == |Unlisted(items, stored)|
      && report.skippedCount == |StoredOnes(items, stored)|
      && report.insertedCount + report.skippedCount == |items|
  {
    var report := AddMultipleMovies(db, Some(items)).response.body;
    var stored := Titles(db.movies);
    assert |DataOf(report.inserted)| == |report.inserted|;
    StoredOnesCount(items, stored);
    assert multiset(report.skipped) == multiset(StoredOnes(items, stored)) by {
      forall t ensures multiset(report.skipped)[t] == multiset(StoredOnes(items, stored))[t] {
        assert t in stored <==> multiset(stored)[t] > 0;
      }
    }
    assert |report.skipped| == |multiset(StoredOnes(items, stored))|;
    StoredOrKept(items, stored);
  }

  // ------------------------------------------------------ update and delete

  /** `updateStatus` on a stored movie is `updateMovie` with a body holding
      only `status`; on an unknown id the two part: `updateMovie` answers 404,
      `updateStatus` 200 with a `null` body. */
  lemma UpdateStatusIsStatusPatch(db: Db, id: Id, s: string)
    ensures (exists m :: m in db.movies && m.id == id) ==>
      UpdateStatus(db, id, Some(s)) == UpdateMovie(db, id, StatusPatch(s))
    ensures (forall m :: m in db.movies ==> m.id != id) ==>
      && UpdateStatus(db, id, Some(s)).response == Response(Ok, Null)
      && UpdateMovie(db, id, StatusPatch(s)).response.status == NotFound
  {
  }

  /** After a movie is deleted, fetching it by id is 404. */
  lemma DeleteThenGetByIdNotFound(db: Db, id: Id)
    requires Valid(db)
    ensures GetMovieById(DeleteMovie(db, id).db, id).status == NotFound
  {
  }

  /** Deleting a stored movie and adding nothing else shrinks the store by one. */
  lemma DeleteShrinksByOne(db: Db, id: Id)
    requires exists m :: m in db.movies && m.id == id
    ensures |DeleteMovie(db, id).db.movies| == |db.movies| - 1
  {
  }

  // ------------------------------------------------------------ genre counts

  /** A movie document with no field but the given genre list. */
  function WithGenres(id: Id, genres: seq<string>): Movie {
    Movie(id, MovieData(None, None, Some(genres), None, None, None, None, None,
                        None, None, None, None, None, None, None, None))
  }

  /** Two movies, one with genres ["x"] and one with ["x", "y"], give the
      groups x: 2 then y: 1. */
  lemma CountFixture()
    ensures CountMoviesByGenre(Db([WithGenres(0, ["x"]), WithGenres(1, ["x", "y"])], [], 2))
            == Response(Ok, Counts([GenreCount("x", 2), GenreCount("y", 1)]))
  {
    var movies := [WithGenres(0, ["x"]), WithGenres(1, ["x", "y"])];
    UnwindFixture();
    DistinctFixture();
    TallyFixture();
    SortFixture();
    assert CountByGenre(movies) == [GenreCount("x", 2), GenreCount("y", 1)];
  }

  lemma UnwindFixture()
    ensures Unwind([WithGenres(0, ["x"]), WithGenres(1, ["x", "y"])]) == ["x", "x", "y"]
  {
    var a, b := WithGenres(0, ["x"]), WithGenres(1, ["x", "y"]);
    assert [a, b][1..] == [b] && [b][1..] == [];
    assert Unwind([b]) == ["x", "y"];
  }

  lemma DistinctFixture()
    ensures Distinct(["x", "x", "y"]) == ["x", "y"]
  {
    assert ["x", "x", "y"][..2] == ["x", "x"];
    assert ["x", "x"][..1] == ["x"];
    assert ["x"][..0] == [];
    assert Distinct(["x"]) == ["x"];
    assert Distinct(["x", "x"]) == ["x"];
  }

  lemma TallyFixture()
    ensures Tally(["x", "y"], ["x", "x", "y"]) == [GenreCount("x", 2), GenreCount("y", 1)]
  {
    assert multiset(["x", "x", "y"])["x"] == 2 && multiset(["x", "x", "y"])["y"] == 1;
  }

  lemma SortFixture()
    ensures SortByTotal([GenreCount("x", 2), GenreCount("y", 1)]) == [GenreCount("x", 2), GenreCount("y", 1)]
  {
    var t := [GenreCount("x", 2), GenreCount("y", 1)];
    assert t[1..] == [GenreCount("y", 1)];
    assert SortByTotal([GenreCount("y", 1)]) == [GenreCount("y", 1)];
  }
}

=== FILE: queries.dfy ===
/** The read handlers of the movie controller. Each takes the request's
    parameters and the store and returns the response; none changes the store. */
module Queries {
  import opened Options
  import opened Text
  import opened Calendar
  import opened Catalog
  import opened Genres
  import opened Http

  /** `GET /movies`: every movie, or 404 when the collection is empty. */
  function GetAllMovies(db: Db): (r: Response)
    ensures r.status == NotFound <==> |db.movies| == 0
    ensures r.status == Ok ==> r.body == All(db.movies)
    ensures r.status in {Ok, NotFound}
  {
    if |db.movies| == 0 then Response(NotFound, Message("No movies found"))
    else Response(Ok, All(db.movies))
  }

  /** The title holds `q` up to letter case (an absent title never matches). */
  predicate TitleMatches(m: Movie, q: string) {
    m.data.title.Some? && EqualsIgnoreCase(m.data.title.value, q)
  }

  /** `m` is the earliest movie of the sequence whose title matches `q`. */
  predicate FirstTitleMatch(movies: seq<Movie>, m: Movie, q: string) {
    exists k :: 0 <= k < |movies| && movies[k] == m && TitleMatches(m, q)
      && forall j :: 0 <= j < k ==> !TitleMatches(movies[j], q)
  }

  /** `Movie.findOne({ title: /^q$/i })` answered as the title handler
      answers it: the first match, or 404. */
  function FindByTitle(db: Db, q: string): (r: Response)
    ensures r.status in {Ok, NotFound}
    ensures r.status == NotFound <==> forall m :: m in db.movies ==> !TitleMatches(m, q)
    ensures r.status == NotFound ==> r.body == Message("Movie not found")
    ensures r.status == Ok ==>
      && r.body.One? && r.body.movie in db.movies && TitleMatches(r.body.movie, q)
      && FirstTitleMatch(db.movies, r.body.movie, q)
  {
    match FindOne(db.movies, TitleLike(q))
    case None => Response(NotFound, Message("Movie not found"))
    case Some(k) =>
      assert FirstTitleMatch(db.movies, db.movies[k], q);
      Response(Ok, One(db.movies[k]))
  }

  /** `GET /movies/movie/:title`: the first movie whose title equals the
      parameter ignoring case. A missing or blank title is refused before the
      store is read. */
  function GetMovieByTitle(db: Db, title: Option<string>): (r: Response)
    ensures r.status in {Ok, BadRequest, NotFound}
    ensures r.status == BadRequest <==> title.None? || IsBlank(title.value)
    ensures r.status == BadRequest ==> r.body == Message("Title is required")
    ensures r.status == NotFound <==>
      title.Some? && !IsBlank(title.value) && forall m :: m in db.movies ==> !TitleMatches(m, title.value)
    ensures r.status == Ok ==>
      && r.body.One? && r.body.movie in db.movies && TitleMatches(r.body.movie, title.value)
      && FirstTitleMatch(db.movies, r.body.movie, title.value)
  {
    if title.None? then Response(BadRequest, Message("Title is required"))
    else
      TrimEmptyIffBlank(title.value);
      if Trim(title.value) == "" then Response(BadRequest, Message("Title is required"))
      else FindByTitle(db, title.value)
  }

  /** The decimal value of an ASCII digit. */
  function DigitValue(c: char): nat
    requires '0' <= c <= '9'
  {
    c as int - '0' as int
  }

  /** A year the date constructor accepts in `YYYY-01-01T00:00:00.000Z`:
      exactly four ASCII digits. Any other text makes an invalid date. */
  function ParseYear(s: string): (r: Option<nat>)
    ensures r.Some? <==> |s| == 4 && forall i :: 0 <= i < 4 ==> '0' <= s[i] <= '9'
    ensures r.Some? ==> r.value < 10000
  {
    if |s| == 4 && forall i :: 0 <= i < 4 ==> '0' <= s[i] <= '9' then
      Some(((DigitValue(s[0]) * 10 + DigitValue(s[1])) * 10 + DigitValue(s[2])) * 10 + DigitValue(s[3]))
    else None
  }

  /** The year read from a text is the one its digits spell: printed with
      four digits, it gives the text back. */
  lemma ParseYearSpellsYear(s: string)
    requires ParseYear(s).Some?
    ensures YearText(ParseYear(s).value) == s
  {
    var a, b, c, d := DigitValue(s[0]), DigitValue(s[1]), DigitValue(s[2]), DigitValue(s[3]);
    assert ParseYear(s).value == ((a * 10 + b) * 10 + c) * 10 + d;
    PrintDigits(a, b, c, d);
    DigitOfValue(s[0]);
    DigitOfValue(s[1]);
    DigitOfValue(s[2]);
    DigitOfValue(s[3]);
    assert s == [s[0], s[1], s[2], s[3]];
  }

  /** An ASCII digit is the digit of its own value. */
  lemma DigitOfValue(x: char)
    requires '0' <= x <= '9'
    ensures Digit(DigitValue(x)) == x
  {
  }

  /** Four digits put together as a year print back as those digits. */
  lemma PrintDigits(a: nat, b: nat, c: nat, d: nat)
    requires a < 10 && b < 10 && c < 10 && d < 10
    ensures var y := ((a * 10 + b) * 10 + c) * 10 + d;
      y < 10000 && YearText(y) == [Digit(a), Digit(b), Digit(c), Digit(d)]
  {
    var y := ((a * 10 + b) * 10 + c) * 10 + d;
    assert y / 10 == (a * 10 + b) * 10 + c && y % 10 == d;
    assert y / 10 / 10 == a * 10 + b && y / 10 % 10 == c;
    assert y / 10 / 10 / 10 == a && y / 10 / 10 % 10 == b;
  }

  /** The ASCII digit of a value below ten. */
  function Digit(n: nat): (c: char)
    requires n < 10
    ensures '0' <= c <= '9' && DigitValue(c) == n
  {
    ('0' as int + n) as char
  }

  /** The four-digit text of a year, zero-padded. */
  function YearText(y: nat): (r: string)
    requires y < 10000
    ensures |r| == 4
  {
    [Digit(y / 10 / 10 / 10), Digit(y / 10 / 10 % 10), Digit(y / 10 % 10), Digit(y % 10)]
  }

  /** Every four-digit year is read back as itself. */
  lemma ParseYearText(y: nat)
    requires y < 10000
    ensures ParseYear(YearText(y)) == Some(y)
  {
    var t := YearText(y);
    var q1, q2 := y / 10, y / 10 / 10;
    assert y == 10 * q1 + y % 10;
    assert q1 == 10 * q2 + q1 % 10;
    assert q2 == 10 * (q2 / 10) + q2 % 10;
    assert forall i :: 0 <= i < 4 ==> '0' <= t[i] <= '9';
  }

  /** Text read as a year holds a digit, so it is not blank. */
  lemma YearIsNotBlank(s: string)
    requires ParseYear(s).Some?
    ensures !IsBlank(s)
  {
    assert !IsSpace(s[0]);
  }

  /** The release date lies in the inclusive window [`lo`, `hi`]. */
  predicate ReleasedBetween(m: Movie, lo: Timestamp, hi: Timestamp) {
    m.data.releaseDate.Some? && lo <= m.data.releaseDate.value <= hi
  }

  /** The release-date query both date handlers run: the movies released
      within [`lo`, `hi`], or 404 with `notFound` when there are none. */
  function ReleasedWithinWindow(db: Db, lo: Timestamp, hi: Timestamp, notFound: string): (r: Response)
    ensures r.status in {Ok, NotFound}
    ensures r.status == NotFound <==> forall m :: m in db.movies ==> !ReleasedBetween(m, lo, hi)
    ensures r.status == NotFound ==> r.body == Message(notFound)
    ensures r.status == Ok ==>
      && r.body.Listing? && r.body.total == |r.body.movies|
      && forall m :: m in r.body.movies <==> m in db.movies && ReleasedBetween(m, lo, hi)
  {
    var movies := Find(db.movies, ReleasedWithin(lo, hi));
    if |movies| == 0 then
      assert forall m :: m in db.movies ==> m !in movies;
      Response(NotFound, Message(notFound))
    else Response(Ok, Listing(movies, |movies|))
  }

  /** The release date lies within year `y`, as the year query's window
      `Y-01-01T00:00:00.000Z` to `Y-12-31T23:59:59.999Z` states it. */
  predicate ReleasedInYear(m: Movie, y: nat) {
    ReleasedBetween(m, YearStart(y), YearEnd(y))
  }

  /** The year query once the year is read: the movies released within it. */
  function MoviesOfYear(db: Db, y: nat): (r: Response)
    ensures r.status in {Ok, NotFound}
    ensures r.status == NotFound <==> forall m :: m in db.movies ==> !ReleasedInYear(m, y)
    ensures r.status == Ok ==>
      && r.body.Listing? && r.body.total == |r.body.movies|
      && forall m :: m in r.body.movies <==> m in db.movies && ReleasedInYear(m, y)
  {
    ReleasedWithinWindow(db, YearStart(y), YearEnd(y), "No movies found for the given date")
  }

  /** `GET /movies/d/?date=Y`: the movies released from `Y-01-01T00:00:00.000Z`
      to `Y-12-31T23:59:59.999Z` inclusive. */
  function GetMoviesByYear(db: Db, date: Option<string>): (r: Response)
    ensures r.status in {Ok, BadRequest, NotFound, ServerError}
    ensures r.status == BadRequest <==> date.None? || IsBlank(date.value)
    ensures r.status == ServerError <==>
      date.Some? && !IsBlank(date.value) && ParseYear(date.value).None?
    ensures r.status == NotFound <==>
      && date.Some? && ParseYear(date.value).Some?
      && forall m :: m in db.movies ==> !ReleasedInYear(m, ParseYear(date.value).value)
    ensures r.status == Ok ==>
      && date.Some? && ParseYear(date.value).Some? && r.body.Listing?
      && r.body.total == |r.body.movies|
      && forall m :: m in r.body.movies <==> m in db.movies && ReleasedInYear(m, ParseYear(date.value).value)
  {
    if date.None? then Response(BadRequest, Message("Date is required"))
    else
      TrimEmptyIffBlank(date.value);
      if Trim(date.value) == "" then Response(BadRequest, Message("Date is required"))
      else
        match ParseYear(date.value)
        case None => Response(ServerError, Message("Error fetching movies"))
        case Some(y) =>
          YearIsNotBlank(date.value);
          MoviesOfYear(db, y)
  }

  /** A date query parameter: absent or empty, not a date, or an instant. */
  datatype DateArg = Missing | Unparsable | At(ms: Timestamp)

  /** `GET /movies/date?startDate&endDate`: the movies released within the
      inclusive range. Both bounds must be given; an unparsable bound makes
      the store reject the query. */
  function GetMoviesByDateRange(db: Db, start: DateArg, end: DateArg): (r: Response)
    ensures r.status in {Ok, BadRequest, NotFound, ServerError}
    ensures r.status == BadRequest <==> start.Missing? || end.Missing?
    ensures r.status == ServerError <==>
      !start.Missing? && !end.Missing? && (start.Unparsable? || end.Unparsable?)
    ensures r.status == NotFound <==>
      start.At? && end.At? && forall m :: m in db.movies ==> !ReleasedBetween(m, start.ms, end.ms)
    ensures r.status == Ok ==>
      && start.At? && end.At? && r.body.Listing? && r.body.total == |r.body.movies|
      && forall m :: m in r.body.movies <==> m in db.movies && ReleasedBetween(m, start.ms, end.ms)
  {
    if start.Missing? || end.Missing? then
      Response(BadRequest, Message("Start date and end date are required"))
    else if start.Unparsable? || end.Unparsable? then
      Response(ServerError, Message("Error fetching movies"))
    else
      ReleasedWithinWindow(db, start.ms, end.ms, "No movies found in the specified date range")
  }

  /** Some element of the genre list equals `q` ignoring case. */
  predicate HasGenre(m: Movie, q: string) {
    m.data.genre.Some? && exists g :: g in m.data.genre.value && EqualsIgnoreCase(g, q)
  }

  /** `GET /movies/genre?genre=q`. The parameter is not checked: when it is
      absent the pattern is built from the text "undefined". */
  function GetMoviesByGenre(db: Db, genre: Option<string>): (r: Response)
    ensures var q := if genre.Some? then genre.value else "undefined";
      && r.status in {Ok, NotFound}
      && (r.status == NotFound <==> forall m :: m in db.movies ==> !HasGenre(m, q))
      && (r.status == Ok ==>
            && r.body.Listing? && r.body.total == |r.body.movies|
            && forall m :: m in r.body.movies <==> m in db.movies && HasGenre(m, q))
  {
    var movies := Find(db.movies, GenreLike(genre.GetOr("undefined")));
    if |movies| == 0 then
      assert forall m :: m in db.movies ==> m !in movies;
      Response(NotFound, Message("No movies found for the given genre"))
    else Response(Ok, Listing(movies, |movies|))
  }

  /** `GET /movies/playing`: the movies whose status is exactly "playing". */
  function GetMoviesCurrentlyPlaying(db: Db): (r: Response)
    ensures r.status in {Ok, NotFound}
    ensures r.status == NotFound <==> forall m :: m in db.movies ==> m.data.status != Some("playing")
    ensures r.status == Ok ==>
      && r.body.Listing? && r.body.total == |r.body.movies|
      && forall m :: m in r.body.movies <==> m in db.movies && m.data.status == Some("playing")
  {
    var movies := Find(db.movies, StatusIs("playing"));
    if |movies| == 0 then
      assert forall m :: m in db.movies ==> m !in movies;
      Response(NotFound, Message("No movies found for the given date"))
    else Response(Ok, Listing(movies, |movies|))
  }

  /** `GET /movies/countByGenre`: one group per distinct genre value with the
      number of genre-list entries holding it, largest count first; 404 when
      no movie has any genre. */
  function CountMoviesByGenre(db: Db): (r: Response)
    ensures var entries := Unwind(db.movies);
      && r.status in {Ok, NotFound}
      && (r.status == NotFound <==> |entries| == 0)
      && (r.status == Ok ==>
            && r.body.Counts?
            && (forall g :: multiset(Keys(r.body.groups))[g] == if g in entries then 1 else 0)
            && (forall i :: 0 <= i < |r.body.groups| ==>
                  r.body.groups[i].total == multiset(entries)[r.body.groups[i].genre])
            && NonIncreasing(r.body.groups)
            && Sum(r.body.groups) == |entries|)
  {
    var groups := CountByGenre(db.movies);
    CountByGenreCorrect(db.movies);
    if |groups| == 0 then Response(NotFound, Message("No movies found"))
    else Response(Ok, Counts(groups))
  }

  /** `GET /movies/:id`: the movie with that id, or 404. */
  function GetMovieById(db: Db, id: Id): (r: Response)
    ensures r.status in {Ok, NotFound}
    ensures r.status == NotFound <==> forall m :: m in db.movies ==> m.id != id
    ensures r.status == Ok ==> r.body.One? && r.body.movie in db.movies && r.body.movie.id == id
  {
    match FindOne(db.movies, IdIs(id))
    case None => Response(NotFound, Message("Movie not found"))
    case Some(k) => Response(Ok, One(db.movies[k]))
  }

  /** The actor appears in the cast or directs the movie. */
  predicate Features(m: Movie, actor: Id) {
    (m.data.cast.Some? && actor in m.data.cast.value) || m.data.director == Some(actor)
  }

  /** `GET /movies/actors/:id`: the movies the actor plays in or directs. */
  function GetMoviesByActor(db: Db, id: Id): (r: Response)
    ensures r.status in {Ok, NotFound}
    ensures r.status == NotFound <==> forall m :: m in db.movies ==> !Features(m, id)
    ensures r.status == Ok ==>
      && r.body.Listing? && r.body.total == |r.body.movies|
      && forall m :: m in r.body.movies <==> m in db.movies && Features(m, id)
  {
    var movies := Find(db.movies, CastOrDirector(id));
    if |movies| == 0 then
      assert forall m :: m in db.movies ==> m !in movies;
      Response(NotFound, Message("No movies found"))
    else Response(Ok, Listing(movies, |movies|))
  }

  /** `Actor.find({ name: /name/i })`: the actors whose name contains the
      query ignoring case, in natural order. */
  function ActorsNamed(actors: seq<Actor>, name: string): (r: seq<Actor>)
    ensures forall a :: a in r <==> a in actors && ContainsIgnoreCase(a.name, name)
  {
    if |actors| == 0 then []
    else
      var rest := ActorsNamed(actors[1..], name);
      assert forall a :: a in actors <==> a == actors[0] || a in actors[1..];
      if ContainsIgnoreCase(actors[0].name, name) then [actors[0]] + rest else rest
  }

  /** `actors.map(actor => actor._id)`. */
  function IdsOf(actors: seq<Actor>): (r: seq<Id>)
    ensures forall id :: id in r <==> exists a :: a in actors && a.id == id
  {
    if |actors| == 0 then []
    else
      assert forall a :: a in actors <==> a == actors[0] || a in actors[1..];
      [actors[0].id] + IdsOf(actors[1..])
  }

  /** Some actor whose name contains `name` (ignoring case) plays in or
      directs the movie. */
  predicate FeaturesActorNamed(db: Db, m: Movie, name: string) {
    exists a :: a in db.actors && ContainsIgnoreCase(a.name, name) && Features(m, a.id)
  }

  /** A movie matches the `$in` filter built from the ids of the actors
      found by name exactly when one of those actors is in it. */
  lemma IdsOfNamedActors(db: Db, name: string)
    ensures var ids := IdsOf(ActorsNamed(db.actors, name));
      forall m :: Satisfies(m, CastOrDirectorIn(ids)) <==> FeaturesActorNamed(db, m, name)
  {
    var actors := ActorsNamed(db.actors, name);
    var ids := IdsOf(actors);
    forall m ensures Satisfies(m, CastOrDirectorIn(ids)) <==> FeaturesActorNamed(db, m, name) {
      if Satisfies(m, CastOrDirectorIn(ids)) {
        if m.data.cast.Some? && exists a :: a in ids && a in m.data.cast.value {
          var id :| id in ids && id in m.data.cast.value;
          var a :| a in actors && a.id == id;
          assert Features(m, a.id);
        } else {
          var a :| a in actors && a.id == m.data.director.value;
          assert Features(m, a.id);
        }
      }
      if FeaturesActorNamed(db, m, name) {
        var a :| a in db.actors && ContainsIgnoreCase(a.name, name) && Features(m, a.id);
        assert a in actors && a.id in ids;
      }
    }
  }

  /** The second step of the actor-name query: the movies featuring one of
      the actors found by name, or 404 when there are none. */
  function MoviesOfNamedActors(db: Db, name: string): (r: Response)
    ensures r.status in {Ok, NotFound}
    ensures r.status == NotFound <==> forall m :: m in db.movies ==> !FeaturesActorNamed(db, m, name)
    ensures r.status == NotFound ==> r.body == Message("No movies found for this actor")
    ensures r.status == Ok ==>
      && r.body.Listing? && r.body.total == |r.body.movies|
      && forall m :: m in r.body.movies <==> m in db.movies && FeaturesActorNamed(db, m, name)
  {
    var movies := Find(db.movies, CastOrDirectorIn(IdsOf(ActorsNamed(db.actors, name))));
    IdsOfNamedActors(db, name);
    if |movies| == 0 then
      assert forall m :: m in db.movies ==> m !in movies;
      Response(NotFound, Message("No movies found for this actor"))
    else Response(Ok, Listing(movies, |movies|))
  }

  /** `GET /movies/actor/:name`: resolve the name to the actors whose name
      contains it, then return the movies any of them plays in or directs. */
  function GetMoviesByActorName(db: Db, name: string): (r: Response)
    ensures r.status in {Ok, NotFound}
    ensures (forall a :: a in db.actors ==> !ContainsIgnoreCase(a.name, name)) <==>
      r == Response(NotFound, Message("No actors found with this name"))
    ensures r.status == NotFound <==> forall m :: m in db.movies ==> !FeaturesActorNamed(db, m, name)
    ensures r.status == Ok ==>
      && r.body.Listing? && r.body.total == |r.body.movies|
      && forall m :: m in r.body.movies <==> m in db.movies && FeaturesActorNamed(db, m, name)
  {
    if |ActorsNamed(db.actors, name)| == 0 then
      assert forall a :: a in db.actors ==> a !in ActorsNamed(db.actors, name);
      Response(NotFound, Message("No actors found with this name"))
    else
      assert ActorsNamed(db.actors, name)[0] in db.actors;
      MoviesOfNamedActors(db, name)
  }
}

=== FILE: text.dfy ===
/** The string tests behind the movie controller: JavaScript's
    `String.prototype.trim`, and the case-insensitive comparisons it hands to
    MongoDB as regular expressions with the `i` option, which the database
    evaluates (`^q$` for equality, a bare `q` for "occurs somewhere in").
    Case folding is modelled on ASCII letters. */
module Text {

  /** The characters `trim` strips: ECMAScript WhiteSpace and LineTerminator. */
  predicate IsSpace(c: char) {
    || c == '\t' || c == '\n' || c == '\U{000B}' || c == '\U{000C}' || c == '\r'
    || c == ' ' || c == '\U{00A0}' || c == '\U{1680}'
    || ('\U{2000}' <= c <= '\U{200A}')
    || c == '\U{2028}' || c == '\U{2029}' || c == '\U{202F}' || c == '\U{205F}'
    || c == '\U{3000}' || c == '\U{FEFF}'
  }

  /** A string made only of white space (the empty string included). */
  predicate IsBlank(s: string) {
    forall i :: 0 <= i < |s| ==> IsSpace(s[i])
  }

  /** Leading white space removed. */
  function TrimStart(s: string): (r: string)
    ensures |r| <= |s| && r == s[|s| - |r|..]
    ensures forall i :: 0 <= i < |s| - |r| ==> IsSpace(s[i])
    ensures r == [] || !IsSpace(r[0])
  {
    if |s| > 0 && IsSpace(s[0]) then
      TrimStart(s[1..])
    else s
  }

  /** Trailing white space removed. */
  function TrimEnd(s: string): (r: string)
    ensures |r| <= |s| && r == s[..|r|]
    ensures forall i :: |r| <= i < |s| ==> IsSpace(s[i])
    ensures r == [] || !IsSpace(r[|r| - 1])
  {
    if |s| > 0 && IsSpace(s[|s| - 1]) then
      TrimEnd(s[..|s| - 1])
    else s
  }

  /** `s.trim()`. */
  function Trim(s: string): string {
    TrimEnd(TrimStart(s))
  }

  /** `s.trim() === ""` holds exactly for the blank strings. */
  lemma TrimEmptyIffBlank(s: string)
    ensures Trim(s) == [] <==> IsBlank(s)
  {
    var t := TrimStart(s);
    assert s == s[..|s| - |t|] + t;
    if t != [] {
      assert !IsSpace(t[0]);
      assert s[|s| - |t|] == t[0];
    } else {
      assert s[..|s| - |t|] == s;
    }
  }

  /** One character with an ASCII capital lowered. */
  function Lower(c: char): char {
    if 'A' <= c <= 'Z' then (c as int + 32) as char else c
  }

  /** The case-folded form of a string. */
  function Fold(s: string): (r: string)
    ensures |r| == |s|
    ensures forall i :: 0 <= i < |s| ==> r[i] == Lower(s[i])
  {
    seq(|s|, i requires 0 <= i < |s| => Lower(s[i]))
  }

  /** Field `a` matches the filter regular expression `^b$` with the `i`
      option, `b` taken literally. */
  predicate EqualsIgnoreCase(a: string, b: string) {
    Fold(a) == Fold(b)
  }

  /** `needle` occurs at some position of `hay`. */
  predicate IsInfix(needle: string, hay: string) {
    exists k :: 0 <= k <= |hay| && needle <= hay[k..]
  }

  /** Field `hay` matches the filter regular expression `needle` with the
      `i` option, `needle` taken literally. */
  predicate ContainsIgnoreCase(hay: string, needle: string) {
    IsInfix(Fold(needle), Fold(hay))
  }

  /** Folding never turns a non-space into a space or the reverse, so whether
      a query is blank does not depend on its letter case. */
  lemma BlankIgnoresCase(a: string, b: string)
    requires EqualsIgnoreCase(a, b)
    ensures IsBlank(a) <==> IsBlank(b)
  {
    forall i | 0 <= i < |a|
      ensures IsSpace(a[i]) <==> IsSpace(b[i])
    {
      assert Fold(a)[i] == Fold(b)[i];
    }
  }

  /** Hence whether a query trims to nothing does not depend on its case. */
  lemma TrimEmptyIgnoresCase(a: string, b: string)
    requires EqualsIgnoreCase(a, b)
    ensures Trim(a) == [] <==> Trim(b) == []
  {
    BlankIgnoresCase(a, b);
    TrimEmptyIffBlank(a);
    TrimEmptyIffBlank(b);
  }

  /** Folding leaves white space alone. */
  lemma FoldKeepsBlank(s: string)
    requires IsBlank(s)
    ensures Fold(s) == s
  {
  }
}

=== FILE: updates.dfy ===
/** The update and delete handlers of the movie controller. An update body
    is a partial movie: only the keys it carries with a defined value are
    written, through `$set`. */
module Updates {
  import opened Options
  import opened Calendar
  import opened Catalog
  import opened Http

  /** One scalar key of an update body: not sent (`undefined`, dropped by the
      handler), or sent with a value, `null` included. */
  datatype Update<T> = Keep | Put(value: Option<T>)

  /** One of the array keys `genre`, `producers`, `cast`: as above, or a
      truthy value that is not an array. */
  datatype ListUpdate<T> = KeepList | PutList(items: Option<seq<T>>) | NotAnArray

  /** The body of `PUT /movies/:id`, key by key. */
  datatype Patch = Patch(
    title: Update<string>,
    description: Update<string>,
    genre: ListUpdate<string>,
    director: Update<Id>,
    producers: ListUpdate<string>,
    cast: ListUpdate<Id>,
    runtime: Update<int>,
    language: Update<string>,
    rating: Update<int>,
    ageRating: Update<string>,
    releaseDate: Update<Timestamp>,
    trailer: Update<string>,
    poster: Update<string>,
    country: Update<string>,
    status: Update<string>,
    bookingsCount: Update<int>)

  /** A body whose array keys passed the handler's checks. */
  predicate ArraysChecked(p: Patch) {
    !p.genre.NotAnArray? && !p.producers.NotAnArray? && !p.cast.NotAnArray?
  }

  function Apply<T>(u: Update<T>, current: Option<T>): Option<T> {
    match u
    case Keep => current
    case Put(v) => v
  }

  function ApplyList<T>(u: ListUpdate<T>, current: Option<seq<T>>): Option<seq<T>>
    requires !u.NotAnArray?
  {
    match u
    case KeepList => current
    case PutList(v) => v
  }

  /** `$set` with the defined keys of the body. */
  function ApplyPatch(p: Patch, d: MovieData): MovieData
    requires ArraysChecked(p)
  {
    MovieData(
      Apply(p.title, d.title), Apply(p.description, d.description),
      ApplyList(p.genre, d.genre), Apply(p.director, d.director),
      ApplyList(p.producers, d.producers), ApplyList(p.cast, d.cast),
      Apply(p.runtime, d.runtime), Apply(p.language, d.language),
      Apply(p.rating, d.rating), Apply(p.ageRating, d.ageRating),
      Apply(p.releaseDate, d.releaseDate), Apply(p.trailer, d.trailer),
      Apply(p.poster, d.poster), Apply(p.country, d.country),
      Apply(p.status, d.status), Apply(p.bookingsCount, d.bookingsCount))
  }

  // ------------------------------------------- fields, read one at a time

  /** The keys of a movie document. */
  datatype Field =
    | TitleField | DescriptionField | GenreField | DirectorField | ProducersField
    | CastField | RuntimeField | LanguageField | RatingField | AgeRatingField
    | ReleaseDateField | TrailerField | PosterField | CountryField | StatusField
    | BookingsCountField

  /** The value under one key, whatever its type. */
  datatype Value =
    | Str(text: Option<string>)
    | Texts(texts: Option<seq<string>>)
    | Ref(ref: Option<Id>)
    | Refs(refs: Option<seq<Id>>)
    | Number(number: Option<int>)

  /** `doc[f]`. */
  function Get(d: MovieData, f: Field): Value {
    match f
    case TitleField => Str(d.title)
    case DescriptionField => Str(d.description)
    case GenreField => Texts(d.genre)
    case DirectorField => Ref(d.director)
    case ProducersField => Texts(d.producers)
    case CastField => Refs(d.cast)
    case RuntimeField => Number(d.runtime)
    case LanguageField => Str(d.language)
    case RatingField => Number(d.rating)
    case AgeRatingField => Str(d.ageRating)
    case ReleaseDateField => Number(d.releaseDate)
    case TrailerField => Str(d.trailer)
    case PosterField => Str(d.poster)
    case CountryField => Str(d.country)
    case StatusField => Str(d.status)
    case BookingsCountField => Number(d.bookingsCount)
  }

  /** `updateData[f] !== undefined`. */
  predicate Supplied(p: Patch, f: Field) {
    match f
    case TitleField => p.title.Put?
    case DescriptionField => p.description.Put?
    case GenreField => !p.genre.KeepList?
    case DirectorField => p.director.Put?
    case ProducersField => !p.producers.KeepList?
    case CastField => !p.cast.KeepList?
    case RuntimeField => p.runtime.Put?
    case LanguageField => p.language.Put?
    case RatingField => p.rating.Put?
    case AgeRatingField => p.ageRating.Put?
    case ReleaseDateField => p.releaseDate.Put?
    case TrailerField => p.trailer.Put?
    case PosterField => p.poster.Put?
    case CountryField => p.country.Put?
    case StatusField => p.status.Put?
    case BookingsCountField => p.bookingsCount.Put?
  }

  /** `updateData[f]`, for a key that was sent. */
  function Given(p: Patch, f: Field): Value
    requires ArraysChecked(p) && Supplied(p, f)
  {
    match f
    case TitleField => Str(p.title.value)
    case DescriptionField => Str(p.description.value)
    case GenreField => Texts(p.genre.items)
    case DirectorField => Ref(p.director.value)
    case ProducersField => Texts(p.producers.items)
    case CastField => Refs(p.cast.items)
    case RuntimeField => Number(p.runtime.value)
    case LanguageField => Str(p.language.value)
    case RatingField => Number(p.rating.value)
    case AgeRatingField => Str(p.ageRating.value)
    case ReleaseDateField => Number(p.releaseDate.value)
    case TrailerField => Str(p.trailer.value)
    case PosterField => Str(p.poster.value)
    case CountryField => Str(p.country.value)
    case StatusField => Str(p.status.value)
    case BookingsCountField => Number(p.bookingsCount.value)
  }

  /** A document is determined by its values key by key. */
  lemma FieldsDetermineDocument(a: MovieData, b: MovieData)
    requires forall f :: Get(a, f) == Get(b, f)
    ensures a == b
  {
    assert Get(a, TitleField) == Get(b, TitleField);
    assert Get(a, DescriptionField) == Get(b, DescriptionField);
    assert Get(a, GenreField) == Get(b, GenreField);
    assert Get(a, DirectorField) == Get(b, DirectorField);
    assert Get(a, ProducersField) == Get(b, ProducersField);
    assert Get(a, CastField) == Get(b, CastField);
    assert Get(a, RuntimeField) == Get(b, RuntimeField);
    assert Get(a, LanguageField) == Get(b, LanguageField);
    assert Get(a, RatingField) == Get(b, RatingField);
    assert Get(a, AgeRatingField) == Get(b, AgeRatingField);
    assert Get(a, ReleaseDateField) == Get(b, ReleaseDateField);
    assert Get(a, TrailerField) == Get(b, TrailerField);
    assert Get(a, PosterField) == Get(b, PosterField);
    assert Get(a, CountryField) == Get(b, CountryField);
    assert Get(a, StatusField) == Get(b, StatusField);
    assert Get(a, BookingsCountField) == Get(b, BookingsCountField);
  }

  /** Only the keys the body sends change, and each takes the value sent. */
  lemma ApplyPatchWritesSuppliedKeys(p: Patch, d: MovieData)
    requires ArraysChecked(p)
    ensures forall f :: Get(ApplyPatch(p, d), f) == if Supplied(p, f) then Given(p, f) else Get(d, f)
  {
  }

  /** Sending the same body twice writes the same document as sending it once. */
  lemma ApplyPatchIdempotent(p: Patch, d: MovieData)
    requires ArraysChecked(p)
    ensures ApplyPatch(p, ApplyPatch(p, d)) == ApplyPatch(p, d)
  {
  }

  /** A body with no defined keys. */
  const EmptyPatch: Patch := Patch(Keep, Keep, KeepList, Keep, KeepList, KeepList, Keep, Keep,
                                   Keep, Keep, Keep, Keep, Keep, Keep, Keep, Keep)

  /** A body that only sends `status`, with the value `s`. */
  function StatusPatch(s: string): (p: Patch)
    ensures forall f :: Supplied(p, f) <==> f == StatusField
    ensures ArraysChecked(p) && Given(p, StatusField) == Str(Some(s))
  {
    EmptyPatch.(status := Put(Some(s)))
  }

  /** An empty body leaves the document as it was. */
  lemma EmptyPatchKeepsDocument(d: MovieData)
    ensures ApplyPatch(EmptyPatch, d) == d
  {
  }

  // -------------------------------------------------------------- handlers

  /** The store with the movie at `k` replaced, everything else kept. */
  function Replace(db: Db, k: nat, m: Movie): (r: Db)
    requires k < |db.movies| && m.id == db.movies[k].id
    ensures |r.movies| == |db.movies| && r.movies[k] == m && r.actors == db.actors
    ensures forall j :: 0 <= j < |db.movies| && j != k ==> r.movies[j] == db.movies[j]
    ensures Valid(db) ==> Valid(r)
  {
    db.(movies := db.movies[k := m])
  }

  /** `PUT /movies/:id`. A missing id is 404 before the body is looked at;
      then `genre`, `producers` and `cast` are refused when truthy and not
      arrays, in that order; then the defined keys are written to that movie
      and nothing else changes. */
  function UpdateMovie(db: Db, id: Id, p: Patch): (r: Outcome)
    ensures r.response.status in {Ok, BadRequest, NotFound}
    ensures (forall m :: m in db.movies ==> m.id != id) ==>
      r == Outcome(Response(NotFound, Error("Movie not found.")), db)
    ensures (exists m :: m in db.movies && m.id == id) ==>
      && (p.genre.NotAnArray? ==> r == Outcome(Response(BadRequest, Error("Genre must be an array.")), db))
      && (!p.genre.NotAnArray? && p.producers.NotAnArray? ==>
            r == Outcome(Response(BadRequest, Error("Producers must be an array.")), db))
      && (!p.genre.NotAnArray? && !p.producers.NotAnArray? && p.cast.NotAnArray? ==>
            r == Outcome(Response(BadRequest, Error("Cast must be an array.")), db))
    ensures r.response.status == Ok ==>
      && ArraysChecked(p) && r.response.body.One?
      && var updated := r.response.body.movie;
      && exists k :: 0 <= k < |db.movies| && db.movies[k].id == id && updated.id == id
           && r.db == db.(movies := db.movies[k := updated])
           && forall f :: Get(updated.data, f)
                          == if Supplied(p, f) then Given(p, f) else Get(db.movies[k].data, f)
    ensures r.response.status == Ok <==> ArraysChecked(p) && exists m :: m in db.movies && m.id == id
    ensures Valid(db) ==> Valid(r.db)
  {
    match FindOne(db.movies, IdIs(id))
    case None => Outcome(Response(NotFound, Error("Movie not found.")), db)
    case Some(k) =>
      if p.genre.NotAnArray? then
        Outcome(Response(BadRequest, Error("Genre must be an array.")), db)
      else if p.producers.NotAnArray? then
        Outcome(Response(BadRequest, Error("Producers must be an array.")), db)
      else if p.cast.NotAnArray? then
        Outcome(Response(BadRequest, Error("Cast must be an array.")), db)
      else
        var updated := Movie(id, ApplyPatch(p, db.movies[k].data));
        ApplyPatchWritesSuppliedKeys(p, db.movies[k].data);
        Outcome(Response(Ok, One(updated)), Replace(db, k, updated))
  }

  /** A successful update writes exactly `$set` of the body onto the stored
      document: the field-wise contract of `UpdateMovie` pins the whole
      document. */
  lemma UpdateMovieWritesPatch(db: Db, id: Id, p: Patch)
    requires UpdateMovie(db, id, p).response.status == Ok
    ensures ArraysChecked(p)
    ensures var r := UpdateMovie(db, id, p);
      exists k :: 0 <= k < |db.movies| && db.movies[k].id == id
        && r.response.body.movie == Movie(id, ApplyPatch(p, db.movies[k].data))
        && r.db == db.(movies := db.movies[k := r.response.body.movie])
  {
    var r := UpdateMovie(db, id, p);
    var updated := r.response.body.movie;
    var k :| && 0 <= k < |db.movies| && db.movies[k].id == id && updated.id == id
             && r.db == db.(movies := db.movies[k := updated])
             && forall f :: Get(updated.data, f)
                            == if Supplied(p, f) then Given(p, f) else Get(db.movies[k].data, f);
    ApplyPatchWritesSuppliedKeys(p, db.movies[k].data);
    FieldsDetermineDocument(updated.data, ApplyPatch(p, db.movies[k].data));
  }

  /** Writing `status` leaves every other key as it was. */
  lemma SetStatusKeepsOtherKeys(d: MovieData, s: string)
    ensures Get(d.(status := Some(s)), StatusField) == Str(Some(s))
    ensures forall f :: f != StatusField ==> Get(d.(status := Some(s)), f) == Get(d, f)
  {
  }

  /** `PUT /movies/status/:id`. A status that is not a string (`None`) is
      refused. There is no existence check: an unknown id answers 200 with a
      `null` body and changes nothing. Otherwise only `status` changes. */
  function UpdateStatus(db: Db, id: Id, status: Option<string>): (r: Outcome)
    ensures r.response.status in {Ok, BadRequest}
    ensures status.None? ==> r == Outcome(Response(BadRequest, Error("Status must be a string.")), db)
    ensures status.Some? && (forall m :: m in db.movies ==> m.id != id) ==>
      r == Outcome(Response(Ok, Null), db)
    ensures status.Some? && (exists m :: m in db.movies && m.id == id) ==>
      && r.response.status == Ok && r.response.body.One?
      && var updated := r.response.body.movie;
      && exists k :: 0 <= k < |db.movies| && db.movies[k].id == id && updated.id == id
           && r.db == db.(movies := db.movies[k := updated])
           && updated.data.status == status
           && forall f :: f != StatusField ==> Get(updated.data, f) == Get(db.movies[k].data, f)
    ensures Valid(db) ==> Valid(r.db)
  {
    match status
    case None => Outcome(Response(BadRequest, Error("Status must be a string.")), db)
    case Some(s) =>
      match FindOne(db.movies, IdIs(id))
      case None => Outcome(Response(Ok, Null), db)
      case Some(k) =>
        var updated := Movie(id, db.movies[k].data.(status := Some(s)));
        SetStatusKeepsOtherKeys(db.movies[k].data, s);
        Outcome(Response(Ok, One(updated)), Replace(db, k, updated))
  }

  /** The store without the movie at `k`; the others keep their order. */
  function RemoveAt(db: Db, k: nat): (r: Db)
    requires k < |db.movies|
    ensures r == db.(movies := db.movies[..k] + db.movies[k + 1..])
    ensures Valid(db) ==> Valid(r) && forall m :: m in r.movies ==> m.id != db.movies[k].id
  {
    var rest := db.movies[..k] + db.movies[k + 1..];
    assert forall j :: 0 <= j < |rest| ==> rest[j] == if j < k then db.movies[j] else db.movies[j + 1];
    db.(movies := rest)
  }

  /** `DELETE /movies/:id`. An unknown id is 404 with the store unchanged;
      otherwise that one movie is removed and every other one kept, in order. */
  function DeleteMovie(db: Db, id: Id): (r: Outcome)
    ensures r.response.status in {Ok, NotFound}
    ensures (forall m :: m in db.movies ==> m.id != id) ==>
      r == Outcome(Response(NotFound, Error("Movie not found.")), db)
    ensures (exists m :: m in db.movies && m.id == id) ==>
      && r.response == Response(Ok, Message("Movie deleted successfully."))
      && exists k :: 0 <= k < |db.movies| && db.movies[k].id == id
           && r.db == db.(movies := db.movies[..k] + db.movies[k + 1..])
    ensures r.db.actors == db.actors && r.db.nextId == db.nextId
    ensures Valid(db) ==> Valid(r.db) && forall m :: m in r.db.movies ==> m.id != id
  {
    match FindOne(db.movies, IdIs(id))
    case None => Outcome(Response(NotFound, Error("Movie not found.")), db)
    case Some(k) => Outcome(Response(Ok, Message("Movie deleted successfully.")), RemoveAt(db, k))
  }
}
